=== FILE: README.md ===
# OpenFund core, modelled in Dafny

OpenFund is a crowdfunding platform: project raisers list token sales, the
OpenFund contract on the SEI chain takes investments, and a PostgreSQL
database mirrors what happens on chain. This project models the off-chain
core that keeps the database and the chain in step, together with the two
security-relevant web paths:

- the **event scanner** (`scanner.dfy`, `ledger.dfy`): reads the block
  checkpoint, walks the unscanned blocks in chunks of at most 1999, writes
  every `InvestmentMade`, `VoteCast` and `Refunded` event as an `investor`
  row and a `transaction` row, and saves the end of each chunk as the new
  checkpoint;
- the **reconciler** (`reconciler.dfy`): every cycle, copies five values
  from `getProjectDetails` into each accepted project that is raising or
  voting, mapping the contract's status code to the off-chain status text;
- the **on-chain lister** (`creation.dfy`): submits `createProject` for
  every accepted project that is not yet listed and marks it `created`;
- the **wallet challenge** of the sign-up route (`wallet.dfy`): a random
  nonce in the session, a fixed challenge text, and a case-insensitive
  comparison of the recovered signer with the claimed address;
- the **admin moderation actions** (`admin.dfy`): salted password hashing,
  the login guard, accept / reject / toggle visibility / claim fee, and the
  filtered project list;
- the **browser wallet helpers** of `connect.js` (`client.dfy`): address
  shortening, wallet names, provider selection, chain switching,
  connecting, signing and the wallet button handler;
- the **funding-status lifecycle** (`lifecycle.dfy`): what the three
  writers of the `project` table do to a row's status together.

The database is an immutable value: `Ledger` holds the investor addresses
and the transaction rows, and `Records.Table` maps project ids to rows.
Everything the code obtains from outside is a parameter:
- the chain (head, logs, contract replies, receipts);
- whether each database statement of the scanner, the reconciler and the
  lister succeeds, and where an admin route's database work fails;
- random bytes;
- SHA-256;
- signature recovery;
- the browser's injected wallet objects and their replies.

Token amounts are exact rationals (`Units.FromRaw(raw) = raw / 10^6`).

## Model

| member | source | states |
|---|---|---|
| Scanner.LastProcessedBlock | scanner_transaction_cronjob.py:77-88 | the stored `last_block` when the file holds one, and 0 when the file is missing, unreadable or has no `last_block` |
| Scanner.Chunks | scanner_transaction_cronjob.py:259-263 | the chunk plan starts at `start` and ends at the head, is empty exactly when nothing is left to scan, and has no gaps; every chunk is non-empty and spans at most 1999 blocks, and every chunk but the last spans exactly 1999 |
| Scanner.ChunksCover | scanner_transaction_cronjob.py:260-299 | every block between the first unscanned block and the head lies in some chunk |
| Scanner.ChunksDisjoint | scanner_transaction_cronjob.py:260-299 | no block lies in two chunks, so no block is scanned twice in one run |
| Scanner.EntriesExact | scanner_transaction_cronjob.py:266-283 | an event is returned by a chunk's filter exactly when it is a chain log of that kind inside the chunk's range |
| Scanner.ChunkEventsOrdered | scanner_transaction_cronjob.py:281-292 | within a chunk, all investments are written before all votes, and all votes before all refunds; the events written are exactly the chain's events in the chunk |
| Scanner.ScanForEvents | scanner_transaction_cronjob.py:241-305 | when not connected, or when the head cannot be read, nothing is written and the result is `None`; with the checkpoint at or past the head, the result is the head and nothing is written. Otherwise the checkpoints saved are the ends of a prefix of the chunk plan, each chunk fetched successfully, whatever the individual event writes did. A failed fetch stops the run with `None`; a full run returns the head. The database is the fold of the scanned chunks' events |
| Scanner.ScanChunks | scanner_transaction_cronjob.py:259-299 | the `while` loop scans a prefix of the chunk plan, stops at the first chunk whose fetch fails, saves the end of each scanned chunk, and leaves the database as the fold of those chunks |
| Scanner.SavedOrdered | scanner_transaction_cronjob.py:297 | the saved checkpoints strictly increase, lie above the starting checkpoint and at or below the head, and a full run leaves the head as the last one |
| Scanner.NoRetryBelowCheckpoint | scanner_transaction_cronjob.py:77-98 | after a run has saved checkpoints, the next run reads back the last one saved, and none of its chunks fetches an event at or below that block again, even one whose write failed |
| Ledger.RowRecoversEvent | scanner_transaction_cronjob.py:127-133 | a transaction row keeps its event: the event, with its account lower-cased, is recovered from the row and the block, including the exact raw amount behind the six-decimal value; a vote row carries no amount or token count and a refund row no token count; the row is typed `investment`, `vote` or `get_refund` by event kind |
| Ledger.Process | scanner_transaction_cronjob.py:100-146 | one event write reports success exactly when the transaction row is appended. A failure before the investor step leaves the database alone; otherwise the lower-cased account joins the investors even if the transaction insert then fails |
| Ledger.ProcessTwice | scanner_transaction_cronjob.py:127-133 | processing the same event twice leaves one investor entry but two identical transaction rows: nothing deduplicates transactions |
| Ledger.ApplyEventsInvestors | scanner_transaction_cronjob.py:121-125 | after a run of events, the investor set is the old one plus the lower-cased accounts of the events that got past the investor step |
| Ledger.ApplyEventsRows | scanner_transaction_cronjob.py:127-135 | after a run of events, the transaction table is the old one followed by the rows of exactly the fully written events, in order |
| Ledger.ReplayDuplicatesRows | scanner_transaction_cronjob.py:285-292 | re-scanning the same events doubles their transaction rows but leaves the investor set as after one scan |
| Reconciler.DbStatus | update_project_cronjob.py:111-117 | code 2 (voting period) is written as voting, 3 as failed and 4 as completed; every other code, including 0, 1 and codes outside the enumeration, defaults to raising. The result is never `not listed` or `created` |
| Reconciler.DbStatusOfCode | update_project_cronjob.py:8-13 | each contract state maps to the off-chain state of the same name, and the initial-created state maps to raising. Distinct states from raising upward stay distinct |
| Reconciler.UnpackAbiOrder | update_project_cronjob.py:25-45 | positional unpacking of the `getProjectDetails` tuple yields the ABI fields of the same names (tokensSold, fundsRaised, status, votersForRefundCount, voteForRefund) |
| Reconciler.Refresh | update_project_cronjob.py:119-127 | the `UPDATE` writes token_sold, fund_raised (raw over 10^6), the mapped status, vote_for_refund and vote_for_refund_count; every off-chain column is unchanged |
| Reconciler.RefreshIdempotent | update_project_cronjob.py:119-127 | writing the same chain values twice is writing them once |
| Reconciler.UpdateProjectInDatabase | update_project_cronjob.py:102-137 | a failed connection or statement leaves the table alone and reports failure; otherwise the row is refreshed and no other row changes |
| Reconciler.ActiveIds | update_project_cronjob.py:75-80 | exactly the accepted projects that are raising or voting are selected |
| Reconciler.SyncProject | update_project_cronjob.py:157-169 | a selected project is refreshed exactly when its details were fetched and its write landed; no other row changes |
| Reconciler.ReconcileOnce | update_project_cronjob.py:153-169 | one pass, in any visiting order, refreshes exactly the selected rows whose fetch and write succeeded, and leaves every other row as it was |
| Reconciler.InactiveUntouched | update_project_cronjob.py:75-80 | a row outside the selection is never written |
| Reconciler.ReconcileStatusMoves | update_project_cronjob.py:111-127 | a pass never writes `not listed` or `created`, never changes a row that is `not listed`, `created`, failed or completed, and never touches an off-chain column |
| Reconciler.ReconcileConverges | update_project_cronjob.py:153-169 | with the chain unchanged and every write landing, a second pass changes nothing |
| Creation.PendingIds | create_project_onchain.py:38-45 | exactly the accepted projects that are `not listed` are selected |
| Creation.ArgsOf | create_project_onchain.py:80-98 | `createProject` gets the row's id, its funding address in the raiser slot, and its token, amounts, end time and decimals. The price is scaled to six decimals and truncated: the raw price is the largest multiple of 10^-6 not above the stored price |
| Creation.PriceExact | create_project_onchain.py:82 | a stored price with at most six decimals reaches the chain exactly |
| Creation.UpdateProjectStatus | create_project_onchain.py:55-76 | a successful update marks the row `created`; a failed one changes nothing; no other row and no other column changes |
| Creation.CreateProjectOnChain | create_project_onchain.py:78-125 | the result is true exactly when the transaction got a receipt, whether or not the status update that follows succeeds; the row becomes `created` only when both succeeded |
| Creation.ListPending | create_project_onchain.py:159-171 | one pass, in any visiting order, marks `created` exactly the pending rows whose submission got a receipt and whose update landed |
| Creation.ListedLeavesPending | create_project_onchain.py:117-122 | a project whose submission and update both succeeded is no longer pending, so it is not submitted again |
| Creation.LostUpdateResubmits | create_project_onchain.py:117-122 | a project whose transaction was mined but whose status update failed stays pending, and the next cycle submits it again |
| Creation.ListingMovesOnlyNotListed | create_project_onchain.py:63-68 | a pass only ever moves an accepted `not listed` row to `created`, and changes nothing else |
| Wallet.ChallengeFor | app.py:36 | the challenge is the fixed prefix followed by the nonce, and the nonce can be read back from it |
| Wallet.ChallengeInjective | app.py:36 | distinct nonces give distinct challenges |
| Wallet.SignupGet | app.py:51-54 | GET stores a fresh nonce in the session and renders it: 32 hex digits that decode back to the sixteen random bytes |
| Wallet.SignupPost | app.py:24-50 | POST never changes the session. A request without a JSON body is refused at `request.json` (app.py:27), before any field is read. A body without a signature ends in a 500, as recovery raises on it. It answers JSON exactly when there is a body with an address and a signature that recovers; any other request with a body ends in a 500. Success holds exactly when the recovered and claimed addresses agree ignoring case. The message is the fixed success text, or the session's nonce on failure |
| Wallet.CaseInsensitive | app.py:40 | changing the letter case of the claimed address never changes the response |
| Wallet.AcceptsOnlyCaseVariants | app.py:39-50 | a recoverable sign-up succeeds exactly when the claimed address is a case variant of the recovered one |
| Wallet.Replay | app.py:35-50 | the nonce is never consumed: sending the same POST n times gets the same response n times |
| Wallet.HonestSignup | app.py:35-54 | after GET, posting a signature of the challenge by `address` with any case variant of `address` succeeds |
| Admin.HashPassword | openfund_admin/app.py:35-40 | the hash is the digest of password plus salt; a given salt is kept, a missing one is replaced by 32 hex digits that decode to the random bytes |
| Admin.VerifyPassword | openfund_admin/app.py:42-44 | a password verifies exactly when the digest of password plus salt equals the stored hash |
| Admin.HashVerifies | openfund_admin/app.py:35-44 | a password verifies against the hash and salt it was hashed with |
| Admin.OtherPasswordRejected | openfund_admin/app.py:42-44 | with a collision-free digest, no other password verifies |
| Admin.LoginRequired | openfund_admin/app.py:47-54 | the handler runs exactly when an admin is logged in; otherwise the route redirects with the login warning |
| Admin.Moderate | openfund_admin/app.py:291-321 | accept sets `accepted`, clears editable and stores the comment; reject sets `rejected` and stores the comment; toggle flips hidden; claim fee sets fee_claimed only on a completed project. Each action leaves every other column unchanged |
| Admin.UpdateProjectHandler | openfund_admin/app.py:281-333 | a connection or cursor failure before the `try` escapes as a 500 with no flash and nothing written; every other path redirects to the project's page. With a working database, the row gets the action's effect and the matching flash. A failed statement, or toggling a missing row, rolls back with only the error flash. A failed commit rolls back after the action's success flash, so that flash is followed by the error flash. The last flash is the error exactly when something after the connection failed. Rows are never created or deleted |
| Admin.UpdateProject | openfund_admin/app.py:281-283 | without a logged-in admin the table is unchanged and the route redirects to the login page; with one, it answers what the handler answers |
| Admin.ToggleTwice | openfund_admin/app.py:305-311 | toggling visibility twice restores the row |
| Admin.ModerationKeepsFunding | openfund_admin/app.py:291-321 | no moderation action changes the funding status, tokens sold or funds raised |
| Admin.ClaimFeeOnlyCompleted | openfund_admin/app.py:315-320 | claiming the fee is idempotent and only changes a completed project |
| Admin.ManageProjects | openfund_admin/app.py:336-372 | a connection or cursor failure before the `try` escapes as a 500. Otherwise the list holds exactly the accepted projects with a raiser, narrowed to one funding state when the filter is non-empty, each with its raiser's name, and nothing is flashed. A failed query lists nothing and flashes the error |
| Admin.FilterSelectsState | openfund_admin/app.py:356-358 | filtering by a state's column text lists exactly the accepted projects in that state; a filter that names no state lists nothing |
| Client.ShortenAddress | static/script/connect.js:25-28 | a falsy address gives the empty string; otherwise the first six characters, `...` and the last four, with JavaScript slice clamping for short addresses |
| Client.ShortenLongAddress | static/script/connect.js:25-28 | an address of ten or more characters shortens to 13 characters that keep its first six and last four |
| Client.FormatWalletName | static/script/connect.js:200-210 | a known wallet key gives its display name, and anything else is returned unchanged |
| Client.FormatWalletNameIdempotent | static/script/connect.js:200-210 | formatting a wallet name twice is formatting it once |
| Client.SelectProvider | static/script/connect.js:54-72 | an unknown wallet type fails with `Unsupported wallet type`. MetaMask, Binance and Coinbase use `window.ethereum`, OKX uses `window.okxwallet`, and Trust uses `window.trustwallet`, falling back to `window.ethereum`. A missing provider fails with `<name> provider not found` |
| Client.SignMessageAsWritten | static/script/connect.js:50-85 | a failed selection gives `null`. After a successful selection, the result is exactly `window.ethereum`'s signature when that object is present, and `null` when it is absent, whichever provider was selected |
| Client.SignMessage | static/script/connect.js:50-85 | the signature comes from the provider that was selected, and a failed selection gives `null` |
| Client.OkxSignatureLost | static/script/connect.js:60-77 | with only the OKX extension installed, selection finds the OKX provider but the written `signMessage` returns `null`, while the corrected one returns the OKX signature |
| Client.SignersAgreeOnEthereum | static/script/connect.js:50-85 | the written and corrected `signMessage` agree whenever the selected provider is `window.ethereum` or selection failed |
| Client.AddSwitchChain | static/script/connect.js:87-144 | every chain request goes to the selected provider, the first is a switch, at most three are sent, and the result holds exactly when the switch succeeds or the add and the second switch both succeed |
| Client.ConnectSlot | static/script/connect.js:146-190 | the provider asked for accounts is installed and is the one the selection switch picks |
| Client.ConnectWallet | static/script/connect.js:146-198 | the result is the first account exactly when the wallet is installed and returned a non-empty account list |
| Client.ConnectedProviderSelected | static/script/connect.js:146-190 | a wallet that connected is selected by the signing and chain-switch switch as the same provider |
| Client.ClientChallenge | static/script/connect.js:225 | the page builds the same challenge text the server checks |
| Client.OnWalletClick | static/script/connect.js:212-245 | no account, or an empty one, leaves the field alone. Any signature comes from `window.ethereum` over the server's challenge for the connected account, with the shortened address shown; a non-empty signature from `window.ethereum` is always kept. Otherwise the field is cleared, even when the connected wallet is another provider |
| Client.OnWalletClickCorrected | static/script/connect.js:212-245 | the handler with the corrected signer: no account, or an empty one, leaves the field alone; any signature comes from the provider that connected, and a non-empty one from it is always kept |
| Client.ClickSignupAccepted | static/script/connect.js:220-233 | end to end with the sign-up route: with honest wallets, a signature either handler produces, posted with the connected account against the session that served the nonce, is accepted |
| Client.OkxOnlyClick | static/script/connect.js:228-233 | end to end with only the OKX extension: the account connects, but the written handler gets no signature and clears the field; the corrected handler gets the OKX signature, which the server accepts |
| Lifecycle.WriteMoves | update_project_cronjob.py:111-127 | each single write by the reconciler, the lister or a moderation action keeps the row and moves its status along the allowed moves |
| Lifecycle.RunMoves | create_project_onchain.py:63-68 | any sequence of whole passes of the three writers keeps every row and moves its status only along the allowed moves: `not listed` to `created`, and raising or voting to a chain-driven state |
| Lifecycle.CreatedNeverRaises | update_project_cronjob.py:75-80 | a project the lister marked `created` stays `created` forever, because the reconciler selects only raising and voting rows |
| Lifecycle.OutcomesFinal | update_project_cronjob.py:75-80 | failed and completed are final under any sequence of whole passes of the writers |
| Units.ToRawFromRaw | scanner_transaction_cronjob.py:113 | scaling a raw amount by 10^-6 and back is the identity |
| Hex.DecodeTokenHex | app.py:52 | `token_hex` output decodes back to its random bytes |
| Text.CaseVariantIffSameLower | app.py:40 | two strings have equal lower-case forms exactly when they differ only in letter case |

## Left out

- Lifecycle.RunMoves: each write is one whole pass of a writer. The interleaving of single row updates inside concurrent reconciler and lister passes is not modelled.
- Network, database and file I/O are parameters or outcome functions. This covers the RPC node, PostgreSQL and the checkpoint file. Polling, `time.sleep` and the outer `while True` loops are not modelled: each model runs one cycle.
- The ordering of query results is not modelled. `ReconcileOnce` and `ListPending` pick rows in any order, and their results hold for every order.
- The `ORDER BY` of `manage_projects` (by creation time or by funds raised) is not modelled. The row carries no creation time, and the order says nothing about which projects are listed.
- Scanner.LastProcessedBlock: a `last_block` that is not a non-negative integer (a string, a float) is not modelled; it would make the scan raise.
- Saving the checkpoint never fails in the model. In the code, `open(BLOCK_FILE, 'w')` empties the file before `json.dump` writes to it, and a failure is only printed. A failure at the open keeps the older checkpoint. A failure in the write or the close can leave the file empty or partial; the next run then reads checkpoint 0, rescans from block 1 and appends every transaction row again, because nothing deduplicates (`Ledger.ReplayDuplicatesRows`). A later successful save in the same run overwrites a failed one.
- Ledger.Process: the chain's timestamp lookup is the `time` parameter. The three handlers differ only in the event fields they copy, so the model shares one `Process` over an `Event` datatype.
- Floating point is modelled as exact rationals. Python divides raw amounts by 10^6 as a float, and `int(float(price) * 10**6)` can lose one unit to rounding. The model uses exact division and truncation toward zero.
- Creation.CreateProjectOnChain: a receipt counts as success even for a reverted transaction, as in the code. The gas, nonce and chain-id values are not modelled.
- Creation.CreateProjectOnChain: the price, amount and decimals conversions run before the `try`. A NULL or non-numeric column therefore raises out of the function and ends the lister's loop through its outer handler. The model's columns are typed and never NULL, so this stop is not modelled.
- Text.Lower folds ASCII letters only. Python's `str.lower` also folds other Unicode letters, which Ethereum addresses never contain.
- Signature recovery, SHA-256 and `secrets` randomness are parameters, because their mathematics is outside the core.
- The login, logout and dashboard routes of the admin app are left out, along with the project detail page. They render templates over queries and have no logic beyond the guard modelled in `Admin.LoginRequired`.
- Admin.UpdateProjectHandler: the text of a database exception in the flash is not modelled. The model keeps its `Error: ` prefix and `danger` category. A failure of the rollback or of closing the cursor and connection, which would escape as a 500, is not modelled either.
- Wallet.SignupPost: JSON fields that are present but are not strings are not modelled; a numeric `wallet_address`, for example, raises at `.lower()` and gives a 500. The model does not tell Flask's 415 (not a JSON content type) from its 400 (a body that does not parse); both are `BadRequest`. A JSON body that is not an object, such as `null` or a list, is not modelled; in the code it raises a 500 at the first `data.get`. The name, e-mail and password fields are only printed and are left out.
- Client.FormatWalletName: the name table is a JavaScript object literal, so keys inherited from `Object.prototype` (`toString`, `constructor`, `__proto__`) return the inherited member instead of the key. The model treats every unknown key as absent.
- Client.ShortenAddress: the model slices by character, while JavaScript `slice` counts UTF-16 code units. The two differ only outside the Basic Multilingual Plane, which wallet addresses never reach.
- The script that posts the sign-up form is not part of this model. Client.ClickSignupAccepted assumes it posts the connected account and the signature the click produced. The page-global `nonce` that connect.js reads is defined by the rendered page, since connect.js's own declaration is commented out; Client.ClickSignupAccepted takes it to be the session's nonce.
- The toast messages, spinner and dialog visibility of `connect.js` are left out, and so is the `main.js`/`nav-bar.js` page code. The `isMetaMask`/`isTrust`/`isCoinbaseWallet` flags are modelled as booleans on `window.ethereum`.
- The test-suite numbering in `contracts/test/test/OpenFund.test.js` disagrees with the enumeration in `update_project_cronjob.py`. The model follows the enumeration the reconciler uses.
- `auto_deploy_webhook.py` is deployment tooling and is not part of this model.

## Findings

| source | as written | input that shows it | evidently intended | confidence | as-written member | corrected member |
|---|---|---|---|---|---|---|
| static/script/connect.js:74-77 | `signMessage` selects and checks a provider for the wallet type, then sends `personal_sign` to `window.ethereum` regardless | wallet type `okx` with only `window.okxwallet` present: the provider check passes, then the call on the missing `window.ethereum` throws, and the result is `null` | send `personal_sign` to the selected provider, as `connectWallet` and `addSwitchChain` do | not executed | Client.SignMessageAsWritten and Client.OnWalletClick (shown by Client.OkxSignatureLost and Client.OkxOnlyClick) | Client.SignMessage and Client.OnWalletClickCorrected |

=== FILE: admin.dfy ===
/** The moderation side of openfund_admin/app.py: salted password hashing,
    the login guard, the per-project moderation actions and the listing of
    accepted projects. */
module Admin {
  import opened Outcomes
  import opened Hex
  import opened Records

  /** The SHA-256 hex digest of a string; kept abstract. */
  type Digest = string -> string

  /** `hash_password`: the digest of password and salt, and the salt used. A
      missing salt is replaced by a fresh one from sixteen random bytes. */
  function HashPassword(password: string, salt: Option<string>, entropy: seq<byte>, sha: Digest): (r: (string, string))
    requires |entropy| == 16
    ensures salt.Some? ==> r.1 == salt.value
    ensures salt.None? ==> |r.1| == 32 && DecodeHex(r.1) == Some(entropy)
    ensures r.0 == sha(password + r.1)
  {
    var s := if salt.Some? then salt.value else TokenHex(entropy);
    assert salt.None? ==> DecodeHex(s) == Some(entropy) by {
      DecodeTokenHex(entropy);
    }
    (sha(password + s), s)
  }

  /** `verify_password`: re-hash with the stored salt and compare. The salt
      is given, so no randomness is drawn. */
  function VerifyPassword(password: string, hashed: string, salt: string, sha: Digest): (ok: bool)
    ensures ok <==> sha(password + salt) == hashed
  {
    var entropy := seq(16, _ => 0);
    HashPassword(password, Some(salt), entropy, sha).0 == hashed
  }

  /** A password verifies against the hash and salt `hash_password` gave it,
      whichever salt was used. */
  lemma HashVerifies(password: string, salt: Option<string>, entropy: seq<byte>, sha: Digest)
    requires |entropy| == 16
    ensures var h := HashPassword(password, salt, entropy, sha);
            VerifyPassword(password, h.0, h.1, sha)
  {
  }

  /** With a collision-free digest, no other password verifies. */
  lemma OtherPasswordRejected(password: string, other: string, salt: string, sha: Digest)
    requires forall a, b :: sha(a) == sha(b) ==> a == b
    requires other != password
    ensures !VerifyPassword(other, sha(password + salt), salt, sha)
  {
    assert (other + salt)[..|other|] == other;
    assert (password + salt)[..|password|] == password;
  }

  /** The admin's session: `admin_id` once logged in. */
  datatype AdminSession = AdminSession(adminId: Option<int>)

  /** A flashed message and its category. */
  datatype Flash = Flash(message: string, category: string)

  /** What a guarded route gives back: the redirect to the login page with a
      warning, or whatever the handler returned. */
  datatype Guarded<R> = RedirectToLogin(warning: Flash) | Ran(result: R)

  /** `login_required`: run the handler only for a logged-in admin. */
  function LoginRequired<R>(session: AdminSession, handler: () -> R): (r: Guarded<R>)
    ensures r.Ran? <==> session.adminId.Some?
    ensures r.Ran? ==> r.result == handler()
    ensures r.RedirectToLogin? ==> r.warning == Flash("Please login to access this page", "warning")
  {
    if session.adminId.None? then RedirectToLogin(Flash("Please login to access this page", "warning"))
    else Ran(handler())
  }

  /** The `update_project` form: `action` and `platform_comment`, each
      possibly absent. */
  datatype ActionForm = ActionForm(action: Option<string>, comment: Option<string>)

  /** The moderation actions the route knows. */
  datatype Action = Accept | Reject | ToggleVisibility | ClaimFee | Unknown

  function ParseAction(a: Option<string>): (r: Action)
    ensures r != Unknown <==> a.Some? && a.value in {"accept", "reject", "toggle_visibility", "claim_fee"}
  {
    match a
    case Some("accept") => Accept
    case Some("reject") => Reject
    case Some("toggle_visibility") => ToggleVisibility
    case Some("claim_fee") => ClaimFee
    case _ => Unknown
  }

  /** The columns an action may change are the only ones allowed to differ. */
  predicate SameExcept(p: Project, q: Project, listing: bool, editable: bool, comment: bool, hidden: bool, fee: bool) {
    && p.raiserId == q.raiserId
    && p.fundingAddress == q.fundingAddress
    && p.tokenAddress == q.tokenAddress
    && p.tokenToSell == q.tokenToSell
    && p.tokenPrice == q.tokenPrice
    && p.investmentEndTime == q.investmentEndTime
    && p.decimal == q.decimal
    && p.fundingStatus == q.fundingStatus
    && p.tokenSold == q.tokenSold
    && p.fundRaised == q.fundRaised
    && p.voteForRefund == q.voteForRefund
    && p.voteForRefundCount == q.voteForRefundCount
    && (listing || p.listingStatus == q.listingStatus)
    && (editable || p.editable == q.editable)
    && (comment || p.platformComment == q.platformComment)
    && (hidden || p.hidden == q.hidden)
    && (fee || p.feeClaimed == q.feeClaimed)
  }

  /** The effect of one action on one row. */
  function Moderate(p: Project, action: Action, comment: string): (q: Project)
    ensures action == Accept ==>
              q.listingStatus == Accepted && !q.editable && q.platformComment == comment &&
              SameExcept(p, q, true, true, true, false, false)
    ensures action == Reject ==>
              q.listingStatus == Rejected && q.platformComment == comment &&
              SameExcept(p, q, true, false, true, false, false)
    ensures action == ToggleVisibility ==> q.hidden == !p.hidden && SameExcept(p, q, false, false, false, true, false)
    ensures action == ClaimFee && p.fundingStatus == Completed ==>
              q.feeClaimed && SameExcept(p, q, false, false, false, false, true)
    ensures action == ClaimFee && p.fundingStatus != Completed ==> q == p
    ensures action == Unknown ==> q == p
  {
    match action
    case Accept => p.(listingStatus := Accepted, editable := false, platformComment := comment)
    case Reject => p.(listingStatus := Rejected, platformComment := comment)
    case ToggleVisibility => p.(hidden := !p.hidden)
    case ClaimFee => if p.fundingStatus == Completed then p.(feeClaimed := true) else p
    case Unknown => p
  }

  /** The message flashed after an action that went through. */
  function Notice(action: Action, nowHidden: bool): Flash {
    match action
    case Accept => Flash("Project has been accepted", "success")
    case Reject => Flash("Project has been rejected", "success")
    case ToggleVisibility => Flash("Project is now " + (if nowHidden then "hidden" else "visible"), "success")
    case ClaimFee => Flash("Platform fee has been marked as claimed", "success")
    case Unknown => Flash("Invalid action", "danger")
  }

  /** Where a database failure strikes in a route: opening the connection or
      its cursor, which happens before the `try` so the exception escapes;
      a statement or the read of its result; or the final commit. */
  datatype DbFault = NoFault | ConnectFails | StatementFails | CommitFails

  /** What a route answers: its page or redirect (`body`) together with the
      messages flashed on the way, in order, or an exception nothing
      catches, which Flask turns into a 500 without flash or redirect. */
  datatype Reply<+T> = Answer(body: T, flashes: seq<Flash>) | InternalError

  /** The flash of a caught database exception. Its text is not modelled. */
  const DbError := Flash("Error: ", "danger")

  /** The body of `update_project`. The action's flash is raised right after
      its statement, before the commit, so a failing commit leaves that flash
      in place and adds the error flash behind it; every caught failure rolls
      back. Toggling a missing row fails once its result is read, and an
      unknown action runs no statement at all. The answer is always the
      redirect to the project's own page. */
  function UpdateProjectHandler(db: Table, id: int, form: ActionForm, fault: DbFault): (r: (Table, Reply<int>))
    ensures r.0.Keys == db.Keys
    ensures r.1.InternalError? <==> fault == ConnectFails
    ensures r.1.Answer? ==> r.1.body == id && 1 <= |r.1.flashes| <= 2
    ensures fault == NoFault && id in db ==>
              var action := ParseAction(form.action);
              r.0 == db[id := Moderate(db[id], action, form.comment.GetOr(""))] &&
              r.1.flashes == [Notice(action, r.0[id].hidden)]
    ensures fault != NoFault || id !in db ==> r.0 == db
    ensures fault == NoFault && id !in db && ParseAction(form.action) != ToggleVisibility ==>
              r.1 == Answer(id, [Notice(ParseAction(form.action), false)])
    ensures fault == CommitFails && (id in db || ParseAction(form.action) != ToggleVisibility) ==>
              r.1 == Answer(id, [Notice(ParseAction(form.action), id in db && !db[id].hidden), DbError])
    ensures fault != ConnectFails &&
            ((fault == StatementFails && ParseAction(form.action) != Unknown) ||
             (id !in db && ParseAction(form.action) == ToggleVisibility)) ==>
              r.1 == Answer(id, [DbError])
    ensures r.1.Answer? ==>
              (r.1.flashes[|r.1.flashes| - 1] == DbError <==>
                 (fault == CommitFails ||
                  (fault == StatementFails && ParseAction(form.action) != Unknown) ||
                  (id !in db && ParseAction(form.action) == ToggleVisibility)))
  {
    var action := ParseAction(form.action);
    var comment := form.comment.GetOr("");
    if fault == ConnectFails then
      (db, InternalError)
    else if (fault == StatementFails && action != Unknown) || (id !in db && action == ToggleVisibility) then
      (db, Answer(id, [DbError]))
    else
      var notice := Notice(action, id in db && !db[id].hidden);
      if fault == CommitFails then (db, Answer(id, [notice, DbError]))
      else if fault == NoFault && id in db then (db[id := Moderate(db[id], action, comment)], Answer(id, [notice]))
      else (db, Answer(id, [notice]))
  }

  /** The `update_project` route behind `login_required`: without a logged-in
      admin nothing is written. */
  function UpdateProject(session: AdminSession, db: Table, id: int, form: ActionForm, fault: DbFault): (r: (Table, Guarded<Reply<int>>))
    ensures session.adminId.None? ==> r.0 == db && r.1.RedirectToLogin?
    ensures session.adminId.Some? ==> r == (UpdateProjectHandler(db, id, form, fault).0, Ran(UpdateProjectHandler(db, id, form, fault).1))
  {
    match LoginRequired(session, () => UpdateProjectHandler(db, id, form, fault))
    case RedirectToLogin(w) => (db, RedirectToLogin(w))
    case Ran(out) => (out.0, Ran(out.1))
  }

  /** Toggling visibility twice restores the row. */
  lemma ToggleTwice(p: Project)
    ensures Moderate(Moderate(p, ToggleVisibility, ""), ToggleVisibility, "") == p
  {
  }

  /** No moderation action changes a project's funding state or the
      chain-driven columns. */
  lemma ModerationKeepsFunding(p: Project, action: Action, comment: string)
    ensures Moderate(p, action, comment).fundingStatus == p.fundingStatus
    ensures Moderate(p, action, comment).tokenSold == p.tokenSold
    ensures Moderate(p, action, comment).fundRaised == p.fundRaised
  {
  }

  /** Claiming the fee is idempotent and only ever happens to a completed
      project. */
  lemma ClaimFeeOnlyCompleted(p: Project)
    ensures Moderate(Moderate(p, ClaimFee, ""), ClaimFee, "") == Moderate(p, ClaimFee, "")
    ensures Moderate(p, ClaimFee, "").feeClaimed != p.feeClaimed ==> p.fundingStatus == Completed
  {
  }

  /** The `manage_projects` query: accepted projects joined with their
      raiser's username, narrowed to one funding state when the filter is
      non-empty. A failing query is caught, flashes the error and lists
      nothing; a failure to connect escapes as a 500. The route commits
      nothing, so a commit fault plays no part. */
  function ManageProjects(db: Table, raisers: map<int, string>, filter: string, fault: DbFault): (r: Reply<map<int, string>>)
    ensures r.InternalError? <==> fault == ConnectFails
    ensures r.Answer? ==> forall id :: id in r.body <==>
              fault != StatementFails && id in db && db[id].listingStatus == Accepted && db[id].raiserId in raisers &&
              (filter == "" || StatusName(db[id].fundingStatus) == filter)
    ensures r.Answer? ==> forall id :: id in r.body ==> r.body[id] == raisers[db[id].raiserId]
    ensures r.Answer? ==> r.flashes == (if fault == StatementFails then [DbError] else [])
  {
    if fault == ConnectFails then InternalError
    else if fault == StatementFails then Answer(map[], [DbError])
    else
      Answer(map id | id in db && db[id].listingStatus == Accepted && db[id].raiserId in raisers &&
                      (filter == "" || StatusName(db[id].fundingStatus) == filter)
               :: raisers[db[id].raiserId], [])
  }

  /** Filtering by a state's column text lists exactly the accepted projects
      in that state, and a filter that names no state lists nothing. */
  lemma FilterSelectsState(db: Table, raisers: map<int, string>, s: FundingStatus, filter: string, id: int)
    ensures id in ManageProjects(db, raisers, StatusName(s), NoFault).body <==>
              id in db && db[id].listingStatus == Accepted && db[id].raiserId in raisers && db[id].fundingStatus == s
    ensures (forall t :: StatusName(t) != filter) && filter != "" ==> ManageProjects(db, raisers, filter, NoFault).body == map[]
  {
    if id in db {
      StatusNameInjective(db[id].fundingStatus, s);
    }
  }
}

=== FILE: arith.dfy ===
/** Integer helpers shared by the scanner's chunk plan and the address
    shortening of the browser helpers. */
module Arith {

  function Min(a: int, b: int): int {
    if a < b then a else b
  }

  function Max(a: int, b: int): int {
    if a < b then b else a
  }
}

=== FILE: client.dfy ===
/** The browser helpers of static/script/connect.js: address shortening,
    wallet display names, the choice of injected provider per wallet type,
    connecting, switching chain and signing the sign-up challenge. */
module Client {
  import opened Outcomes
  import Wallet
  import opened Arith

  /** A JavaScript value where a string is expected. */
  datatype JsString = Undefined | Null | Str(s: string)

  /** JavaScript truthiness of such a value: only a non-empty string. */
  predicate Truthy(v: JsString) {
    v.Str? && v.s != ""
  }

  /** How `String.prototype.slice` resolves an index: negative counts from
      the end, and the result is clamped to `[0, len]`. */
  function SliceIndex(i: int, len: nat): (r: nat)
    ensures r <= len
    ensures i >= 0 ==> r == if i < len then i else len
    ensures i < 0 ==> r == if len + i > 0 then len + i else 0
  {
    if i < 0 then (if len + i > 0 then len + i else 0)
    else if i < len then i else len
  }

  /** `s.slice(start, end)`: empty when the resolved start is not before the
      resolved end. */
  function Slice(s: string, start: int, end: int): string {
    var from := SliceIndex(start, |s|);
    var to := SliceIndex(end, |s|);
    if from < to then s[from..to] else ""
  }

  /** `s.slice(start)`. */
  function SliceFrom(s: string, start: int): string {
    Slice(s, start, |s|)
  }

  /** `shortenAddress`: a falsy address gives the empty string; otherwise
      the first six characters, an ellipsis and the last four. A short
      address overlaps itself, so nothing is dropped. */
  function ShortenAddress(address: JsString): (r: string)
    ensures !Truthy(address) ==> r == ""
    ensures Truthy(address) ==>
              var s := address.s;
              r == s[..Min(6, |s|)] + "..." + s[Max(|s| - 4, 0)..]
  {
    if !Truthy(address) then ""
    else Slice(address.s, 0, 6) + "..." + SliceFrom(address.s, -4)
  }

  /** An address of ten or more characters shortens to thirteen: its first
      six characters, `...`, and its last four. */
  lemma ShortenLongAddress(s: string)
    requires |s| >= 10
    ensures var r := ShortenAddress(Str(s));
            && |r| == 13
            && r[..6] == s[..6]
            && r[6..9] == "..."
            && r[9..] == s[|s| - 4..]
  {
  }

  /** The wallet types the page offers. */
  datatype WalletKind = MetaMask | Binance | Okx | Trust | Coinbase

  /** The `data-wallet` key of each wallet type. */
  function Key(k: WalletKind): string {
    match k
    case MetaMask => "metamask"
    case Binance => "binance"
    case Okx => "okx"
    case Trust => "trust"
    case Coinbase => "coinbase"
  }

  /** The display name of each wallet type. */
  function DisplayName(k: WalletKind): string {
    match k
    case MetaMask => "MetaMask"
    case Binance => "Binance Wallet"
    case Okx => "OKX Wallet"
    case Trust => "Trust Wallet"
    case Coinbase => "Coinbase Wallet"
  }

  /** The wallet type a key names, if any. */
  function ParseWallet(walletType: string): (r: Option<WalletKind>)
    ensures r.Some? ==> Key(r.value) == walletType
    ensures r.None? ==> forall k :: Key(k) != walletType
  {
    if walletType == "metamask" then Some(MetaMask)
    else if walletType == "binance" then Some(Binance)
    else if walletType == "okx" then Some(Okx)
    else if walletType == "trust" then Some(Trust)
    else if walletType == "coinbase" then Some(Coinbase)
    else None
  }

  /** `formatWalletName`: the display name of a known wallet type, anything
      else unchanged. */
  function FormatWalletName(walletType: string): (r: string)
    ensures forall k :: Key(k) == walletType ==> r == DisplayName(k)
    ensures (forall k :: Key(k) != walletType) ==> r == walletType
  {
    match ParseWallet(walletType)
    case Some(k) => DisplayName(k)
    case None => walletType
  }

  /** A display name is its own display name: formatting twice is
      formatting once. */
  lemma FormatWalletNameIdempotent(walletType: string)
    ensures FormatWalletName(FormatWalletName(walletType)) == FormatWalletName(walletType)
  {
    match ParseWallet(walletType)
    case None =>
    case Some(k) =>
      forall j: WalletKind
        ensures Key(j) != DisplayName(k)
      {
        assert Key(j)[0] != DisplayName(k)[0];
      }
  }

  /** The injected providers a page can see. */
  datatype Slot = Ethereum | OkxWallet | TrustWallet

  /** Flags `window.ethereum` carries. */
  datatype EthFlags = EthFlags(isMetaMask: bool, isTrust: bool, isCoinbaseWallet: bool)

  /** The injected objects: `window.ethereum` with its flags, and whether
      `window.okxwallet` and `window.trustwallet` are set. */
  datatype Window = Window(ethereum: Option<EthFlags>, okxwallet: bool, trustwallet: bool)

  predicate Present(w: Window, slot: Slot) {
    match slot
    case Ethereum => w.ethereum.Some?
    case OkxWallet => w.okxwallet
    case TrustWallet => w.trustwallet
  }

  /** The provider a wallet type uses, when injected: the Ethereum object
      for MetaMask, Binance and Coinbase, the OKX object for OKX, and for
      Trust the Trust object, falling back to the Ethereum object. */
  function Candidate(w: Window, k: WalletKind): (r: Option<Slot>)
    ensures r.Some? ==> Present(w, r.value)
  {
    match k
    case Okx => if w.okxwallet then Some(OkxWallet) else None
    case Trust => if w.trustwallet then Some(TrustWallet) else if w.ethereum.Some? then Some(Ethereum) else None
    case _ => if w.ethereum.Some? then Some(Ethereum) else None
  }

  /** The `switch (walletType)` shared by `signMessage` and `addSwitchChain`,
      followed by the `!provider` check. */
  function SelectProvider(w: Window, walletType: string): (r: Result<Slot>)
    ensures ParseWallet(walletType).None? ==> r == Err("Unsupported wallet type")
    ensures r.Ok? ==> ParseWallet(walletType).Some? && Present(w, r.value)
    ensures ParseWallet(walletType).Some? ==>
              var k := ParseWallet(walletType).value;
              && (k in {MetaMask, Binance, Coinbase} ==> r.Ok? == w.ethereum.Some? && (r.Ok? ==> r.value == Ethereum))
              && (k == Okx ==> r.Ok? == w.okxwallet && (r.Ok? ==> r.value == OkxWallet))
              && (k == Trust ==> r.Ok? == (w.trustwallet || w.ethereum.Some?) &&
                                 (r.Ok? ==> r.value == if w.trustwallet then TrustWallet else Ethereum))
              && (r.Err? ==> r.message == DisplayName(k) + " provider not found")
  {
    match ParseWallet(walletType)
    case None => Err("Unsupported wallet type")
    case Some(k) =>
      match Candidate(w, k)
      case None => Err(FormatWalletName(walletType) + " provider not found")
      case Some(slot) => Ok(slot)
  }

  /** A wallet's answer to `personal_sign(message, account)` sent to a
      provider: the signature, or `None` when it rejects or throws. */
  type Signer = (Slot, string, string) -> Option<string>

  /** `signMessage` as written: it selects and checks a provider, then sends
      the request to `window.ethereum` regardless, which throws when that
      object is missing. Any error yields `null`. */
  function SignMessageAsWritten(w: Window, account: string, message: string, walletType: string, sign: Signer): (r: Option<string>)
    ensures SelectProvider(w, walletType).Err? ==> r == None
    ensures SelectProvider(w, walletType).Ok? && !Present(w, Ethereum) ==> r == None
    ensures SelectProvider(w, walletType).Ok? && Present(w, Ethereum) ==> r == sign(Ethereum, message, account)
  {
    match SelectProvider(w, walletType)
    case Err(_) => None
    case Ok(_) => if w.ethereum.None? then None else sign(Ethereum, message, account)
  }

  /** `signMessage` sending the request to the provider it selected. */
  function SignMessage(w: Window, account: string, message: string, walletType: string, sign: Signer): (r: Option<string>)
    ensures SelectProvider(w, walletType).Err? ==> r == None
    ensures SelectProvider(w, walletType).Ok? ==> r == sign(SelectProvider(w, walletType).value, message, account)
  {
    match SelectProvider(w, walletType)
    case Err(_) => None
    case Ok(slot) => sign(slot, message, account)
  }

  /** With only the OKX extension installed, the written `signMessage`
      fails for `okx` although a provider was found, while the corrected one
      obtains the OKX wallet's signature. */
  lemma OkxSignatureLost(account: string, message: string, signature: string)
    ensures var w := Window(None, true, false);
            var sign: Signer := (slot, m, a) => if slot == OkxWallet then Some(signature) else None;
            && SelectProvider(w, "okx") == Ok(OkxWallet)
            && SignMessageAsWritten(w, account, message, "okx", sign) == None
            && SignMessage(w, account, message, "okx", sign) == Some(signature)
  {
  }

  /** The two agree exactly when the selected provider is `window.ethereum`
      (or nothing was selected). */
  lemma SignersAgreeOnEthereum(w: Window, account: string, message: string, walletType: string, sign: Signer)
    requires SelectProvider(w, walletType).Err? || SelectProvider(w, walletType).value == Ethereum
    ensures SignMessageAsWritten(w, account, message, walletType, sign) == SignMessage(w, account, message, walletType, sign)
  {
  }

  /** The chain-setup requests `addSwitchChain` can send. */
  datatype ChainRequest = SwitchChain | AddChain

  /** `addSwitchChain`: ask the selected provider to switch to the SEI devnet;
      if that fails, add the chain and switch again. `replies(k)` is whether
      the `k`-th request succeeds. Returns the outcome and the requests sent,
      in order, each with the provider it went to. */
  function AddSwitchChain(w: Window, walletType: string, replies: nat -> bool): (r: (bool, seq<(Slot, ChainRequest)>))
    ensures SelectProvider(w, walletType).Err? ==> r == (false, [])
    ensures SelectProvider(w, walletType).Ok? ==>
              var slot := SelectProvider(w, walletType).value;
              && 1 <= |r.1| <= 3
              && (forall i :: 0 <= i < |r.1| ==> r.1[i].0 == slot)
              && r.1[0].1 == SwitchChain
              && (r.0 <==> replies(0) || (replies(1) && replies(2)))
  {
    match SelectProvider(w, walletType)
    case Err(_) => (false, [])
    case Ok(slot) =>
      if replies(0) then (true, [(slot, SwitchChain)])
      else if !replies(1) then (false, [(slot, SwitchChain), (slot, AddChain)])
      else (replies(2), [(slot, SwitchChain), (slot, AddChain), (slot, SwitchChain)])
  }

  /** The provider `connectWallet` asks for accounts, or `None` when the
      installed-check fails. MetaMask and Coinbase need their flag on
      `window.ethereum`, and Trust falls back to `window.ethereum` only when
      it carries `isTrust`; an unknown type asks nobody. */
  function ConnectSlot(w: Window, walletType: string): (r: Option<Slot>)
    ensures r.Some? ==> ParseWallet(walletType).Some? && Present(w, r.value)
    ensures r.Some? ==> Candidate(w, ParseWallet(walletType).value) == r
  {
    match ParseWallet(walletType)
    case None => None
    case Some(MetaMask) => if w.ethereum.Some? && w.ethereum.value.isMetaMask then Some(Ethereum) else None
    case Some(Binance) => if w.ethereum.Some? then Some(Ethereum) else None
    case Some(Okx) => if w.okxwallet then Some(OkxWallet) else None
    case Some(Trust) =>
      if w.trustwallet then Some(TrustWallet)
      else if w.ethereum.Some? && w.ethereum.value.isTrust then Some(Ethereum)
      else None
    case Some(Coinbase) => if w.ethereum.Some? && w.ethereum.value.isCoinbaseWallet then Some(Ethereum) else None
  }

  /** A wallet's answer to `eth_requestAccounts`: the account list, or `None`
      when the user rejects or the call throws. */
  type Accounts = Slot -> Option<seq<string>>

  /** `connectWallet`: the first account, or `null` when the wallet is not
      installed, the request fails, or the list is empty. */
  function ConnectWallet(w: Window, walletType: string, accounts: Accounts): (r: Option<string>)
    ensures r.Some? <==>
              ConnectSlot(w, walletType).Some? &&
              accounts(ConnectSlot(w, walletType).value).Some? &&
              |accounts(ConnectSlot(w, walletType).value).value| > 0
    ensures r.Some? ==> r.value == accounts(ConnectSlot(w, walletType).value).value[0]
  {
    match ConnectSlot(w, walletType)
    case None => None
    case Some(slot) =>
      match accounts(slot)
      case None => None
      case Some(list) => if |list| > 0 then Some(list[0]) else None
  }

  /** The provider that connected is the provider the corrected
      `signMessage` and `addSwitchChain` select. */
  lemma ConnectedProviderSelected(w: Window, walletType: string)
    requires ConnectSlot(w, walletType).Some?
    ensures SelectProvider(w, walletType) == Ok(ConnectSlot(w, walletType).value)
  {
  }

  /** The challenge text the page builds from the nonce it was rendered
      with. */
  function ClientChallenge(nonce: string): (m: string)
    ensures m == Wallet.ChallengeFor(nonce)
  {
    "Sign this message to verify your wallet ownership with OpenFund. Nonce: " + nonce
  }

  /** What the wallet button handler leaves behind: the text in the wallet
      address field and the signature, if any. */
  datatype ClickOutcome = ClickOutcome(addressField: string, signature: Option<string>)

  /** The end of the handler once an account connected: a non-empty
      signature keeps the shortened address on show, anything else clears
      the field. */
  function Settle(account: string, signature: Option<string>): ClickOutcome {
    if signature.Some? && signature.value != "" then ClickOutcome(ShortenAddress(Str(account)), signature)
    else ClickOutcome("", None)
  }

  /** The click handler as written: connect, show the shortened address,
      sign the challenge with the written `signMessage`, and clear the field
      when no signature came back. The chain setup in between has no effect
      on the outcome, since its result is ignored. Nothing happens to the
      field when no account, or only the falsy empty one, connected. A
      signature therefore only ever comes from `window.ethereum`, whichever
      wallet connected. `nonce` is the page-global `nonce`: connect.js's own
      declaration of it is commented out, so its value is whatever the
      rendered page defines. */
  function OnWalletClick(w: Window, walletType: string, nonce: string, field: string,
                         accounts: Accounts, sign: Signer): (r: ClickOutcome)
    ensures ConnectWallet(w, walletType, accounts).None? ==> r == ClickOutcome(field, None)
    ensures ConnectWallet(w, walletType, accounts) == Some("") ==> r == ClickOutcome(field, None)
    ensures r.signature.Some? ==>
              var account := ConnectWallet(w, walletType, accounts);
              && account.Some? && account.value != ""
              && Present(w, Ethereum)
              && r.addressField == ShortenAddress(Str(account.value))
              && r.signature == sign(Ethereum, Wallet.ChallengeFor(nonce), account.value)
              && r.signature.value != ""
    ensures var account := ConnectWallet(w, walletType, accounts);
            account.Some? && account.value != "" && Present(w, Ethereum) ==>
              var sig := sign(Ethereum, Wallet.ChallengeFor(nonce), account.value);
              (sig.Some? && sig.value != "" ==> r.signature == sig)
    ensures (r.signature.None? && ConnectWallet(w, walletType, accounts).Some? &&
             ConnectWallet(w, walletType, accounts).value != "") ==> r.addressField == ""
  {
    match ConnectWallet(w, walletType, accounts)
    case None => ClickOutcome(field, None)
    case Some(account) =>
      if account == "" then ClickOutcome(field, None)
      else
        ConnectedProviderSelected(w, walletType);
        Settle(account, SignMessageAsWritten(w, account, ClientChallenge(nonce), walletType, sign))
  }

  /** The click handler with the corrected `signMessage`: the signature comes
      from the provider that connected. `nonce` is the page-global value, as
      in `OnWalletClick`. */
  function OnWalletClickCorrected(w: Window, walletType: string, nonce: string, field: string,
                                  accounts: Accounts, sign: Signer): (r: ClickOutcome)
    ensures ConnectWallet(w, walletType, accounts).None? ==> r == ClickOutcome(field, None)
    ensures ConnectWallet(w, walletType, accounts) == Some("") ==> r == ClickOutcome(field, None)
    ensures r.signature.Some? ==>
              var account := ConnectWallet(w, walletType, accounts);
              && account.Some? && account.value != ""
              && r.addressField == ShortenAddress(Str(account.value))
              && r.signature == sign(ConnectSlot(w, walletType).value, Wallet.ChallengeFor(nonce), account.value)
              && r.signature.value != ""
    ensures var account := ConnectWallet(w, walletType, accounts);
            account.Some? && account.value != "" ==>
              var sig := sign(ConnectSlot(w, walletType).value, Wallet.ChallengeFor(nonce), account.value);
              (sig.Some? && sig.value != "" ==> r.signature == sig)
    ensures (r.signature.None? && ConnectWallet(w, walletType, accounts).Some? &&
             ConnectWallet(w, walletType, accounts).value != "") ==> r.addressField == ""
  {
    match ConnectWallet(w, walletType, accounts)
    case None => ClickOutcome(field, None)
    case Some(account) =>
      if account == "" then ClickOutcome(field, None)
      else
        ConnectedProviderSelected(w, walletType);
        Settle(account, SignMessage(w, account, ClientChallenge(nonce), walletType, sign))
  }

  /** Wallets that sign honestly: a signature a provider returns for an
      account recovers to that account. */
  ghost predicate Honest(sign: Signer, recover: Wallet.Recover) {
    forall slot, m, a :: sign(slot, m, a).Some? ==> recover(m, sign(slot, m, a).value) == Some(a)
  }

  /** End to end: when the page posts the connected account with the
      signature a click produced, against the session that served the nonce,
      honest wallets get the sign-up accepted. This holds for the handler as
      written and for the corrected one. The page-global `nonce` is taken to
      be the one the session holds, that is, the one the sign-up page was
      rendered with. */
  lemma ClickSignupAccepted(session: Wallet.Session, nonce: string, w: Window, walletType: string, field: string,
                            accounts: Accounts, sign: Signer, recover: Wallet.Recover)
    requires session.nonce == Some(nonce)
    requires Honest(sign, recover)
    ensures var click := OnWalletClick(w, walletType, nonce, field, accounts, sign);
            click.signature.Some? ==>
              Wallet.SignupPost(session, Some(Wallet.SignupBody(ConnectWallet(w, walletType, accounts), click.signature)), recover).1
                == Wallet.Json(true, Wallet.SignupSucceeded)
    ensures var click := OnWalletClickCorrected(w, walletType, nonce, field, accounts, sign);
            click.signature.Some? ==>
              Wallet.SignupPost(session, Some(Wallet.SignupBody(ConnectWallet(w, walletType, accounts), click.signature)), recover).1
                == Wallet.Json(true, Wallet.SignupSucceeded)
  {
  }

  /** End to end with only the OKX extension installed: the account
      connects, but the handler as written gets no signature and clears the
      field, so no sign-up can be posted; the corrected handler obtains the
      OKX signature and an honest OKX wallet gets the sign-up accepted. */
  lemma OkxOnlyClick(session: Wallet.Session, nonce: string, account: string, signature: string,
                     field: string, recover: Wallet.Recover)
    requires session.nonce == Some(nonce)
    requires account != "" && signature != ""
    requires recover(Wallet.ChallengeFor(nonce), signature) == Some(account)
    ensures var w := Window(None, true, false);
            var accounts: Accounts := slot => if slot == OkxWallet then Some([account]) else None;
            var sign: Signer := (slot, m, a) => if slot == OkxWallet then Some(signature) else None;
            && ConnectWallet(w, "okx", accounts) == Some(account)
            && OnWalletClick(w, "okx", nonce, field, accounts, sign) == ClickOutcome("", None)
            && OnWalletClickCorrected(w, "okx", nonce, field, accounts, sign)
                 == ClickOutcome(ShortenAddress(Str(account)), Some(signature))
            && Wallet.SignupPost(session, Some(Wallet.SignupBody(Some(account), Some(signature))), recover).1
                 == Wallet.Json(true, Wallet.SignupSucceeded)
  {
  }
}

=== FILE: creation.dfy ===
/** The on-chain lister of create_project_onchain.py: every cycle it selects
    the accepted projects not yet listed, submits `createProject` for each and,
    once a receipt arrives, marks the row `created`. */
module Creation {
  import opened Outcomes
  import opened Units
  import opened Records

  /** The `get_pending_projects` query: accepted and not yet listed. */
  predicate Pending(p: Project) {
    p.listingStatus == Accepted && p.fundingStatus == NotListed
  }

  function PendingIds(db: Table): (r: set<int>)
    ensures forall id :: id in r <==> id in db && Pending(db[id])
  {
    set id | id in db && Pending(db[id])
  }

  /** The arguments of `createProject`, in ABI order. */
  datatype CreateArgs = CreateArgs(
    projectId: int,
    raiser: string,
    tokenAddress: string,
    tokensToSell: nat,
    tokenPrice: int,
    endFundingTime: nat,
    decimal: nat
  )

  /** The arguments built from a selected row: the funding address goes in
      the raiser slot and the price is scaled to six decimals, truncated. */
  function ArgsOf(id: int, p: Project): (a: CreateArgs)
    ensures a.projectId == id && a.raiser == p.fundingAddress && a.tokenAddress == p.tokenAddress
    ensures a.tokensToSell == p.tokenToSell && a.endFundingTime == p.investmentEndTime && a.decimal == p.decimal
    ensures p.tokenPrice >= 0.0 ==> a.tokenPrice >= 0 && FromRaw(a.tokenPrice) <= p.tokenPrice < FromRaw(a.tokenPrice + 1)
  {
    var a := CreateArgs(id, p.fundingAddress, p.tokenAddress, p.tokenToSell, ToRaw(p.tokenPrice),
                        p.investmentEndTime, p.decimal);
    if p.tokenPrice >= 0.0 then ToRawBounds(p.tokenPrice); a else a
  }

  /** Whether the arguments fit the ABI types: the price is a `uint256` and
      the decimals a `uint8`; otherwise building the transaction raises. */
  predicate Encodable(a: CreateArgs) {
    a.tokenPrice >= 0 && a.decimal < 256
  }

  /** A stored price with at most six decimals reaches the chain exactly. */
  lemma PriceExact(id: int, p: Project, raw: nat)
    requires p.tokenPrice == FromRaw(raw)
    ensures ArgsOf(id, p).tokenPrice == raw
  {
    ToRawFromRaw(raw);
  }

  /** `update_project_status`: marks the row `created`. `ok` is false when
      connecting or the statement fails, leaving the table as it was. */
  function UpdateProjectStatus(db: Table, id: int, ok: bool): (r: (Table, bool))
    ensures r.1 == ok
    ensures r.0.Keys == db.Keys
    ensures ok && id in db ==> r.0[id].fundingStatus == Created
    ensures forall k :: k in db ==> r.0[k].listingStatus == db[k].listingStatus
    ensures forall k :: k in db && (k != id || !ok) ==> r.0[k] == db[k]
    ensures forall k :: k in db ==> r.0[k] == db[k] || r.0[k] == db[k].(fundingStatus := Created)
  {
    if ok && id in db then (db[id := db[id].(fundingStatus := Created)], true) else (db, ok)
  }

  /** How the calls for one project end in a cycle: `sent(a)` is true when
      every call from reading the nonce to waiting for the receipt returned,
      `dbOk(id)` whether the status update went through. */
  datatype Environment = Environment(sent: CreateArgs -> bool, dbOk: int -> bool)

  /** Whether the contract call for a row gets a receipt. */
  predicate Submitted(env: Environment, id: int, p: Project) {
    Encodable(ArgsOf(id, p)) && env.sent(ArgsOf(id, p))
  }

  /** `create_project_onchain` for the row `id` as selected. The result is
      true as soon as a receipt arrives, whether or not the status update
      that follows succeeds. */
  function CreateProjectOnChain(db: Table, id: int, row: Project, env: Environment): (r: (Table, bool))
    ensures r.1 <==> Submitted(env, id, row)
    ensures r.0.Keys == db.Keys
    ensures r.1 && env.dbOk(id) && id in db ==> r.0[id].fundingStatus == Created
    ensures forall k :: k in db && (k != id || !r.1 || !env.dbOk(id)) ==> r.0[k] == db[k]
    ensures forall k :: k in db ==> r.0[k] == db[k] || r.0[k] == db[k].(fundingStatus := Created)
  {
    if !Submitted(env, id, row) then (db, false)
    else (UpdateProjectStatus(db, id, env.dbOk(id)).0, true)
  }

  /** What one row holds after a cycle, as a reference: a pending row whose
      submission got a receipt and whose update landed is `created`; every
      other row is unchanged. A failed selection selects nothing. */
  function Target(db: Table, env: Environment, selectOk: bool, id: int): Project
    requires id in db
  {
    if selectOk && Pending(db[id]) && Submitted(env, id, db[id]) && env.dbOk(id)
    then db[id].(fundingStatus := Created)
    else db[id]
  }

  function Listed(db: Table, env: Environment, selectOk: bool): Table {
    map id | id in db :: Target(db, env, selectOk, id)
  }

  /** One pass of the `while True` body: select the pending rows, then submit
      each, in whatever order the query returns them. */
  method ListPending(db: Table, env: Environment, selectOk: bool) returns (db': Table)
    ensures db' == Listed(db, env, selectOk)
  {
    var remaining: set<int> := if selectOk then PendingIds(db) else {};
    ghost var selected := remaining;
    db' := db;
    while remaining != {}
      invariant remaining <= selected
      invariant db'.Keys == db.Keys
      invariant forall k :: k in remaining ==> k in db && db'[k] == db[k]
      invariant forall k :: k in db && k !in remaining ==> db'[k] == Target(db, env, selectOk, k)
      decreases remaining
    {
      ghost var some := Member(remaining);
      var id :| id in remaining;
      var outcome := CreateProjectOnChain(db', id, db'[id], env);
      db' := outcome.0;
      remaining := remaining - {id};
    }
    assert forall k :: k in db ==> db'[k] == Listed(db, env, selectOk)[k];
  }

  /** A project whose creation and status update both succeeded is no longer
      pending, so the next cycle does not submit it again. */
  lemma ListedLeavesPending(db: Table, env: Environment, id: int)
    requires id in db && Pending(db[id]) && Submitted(env, id, db[id]) && env.dbOk(id)
    ensures id in Listed(db, env, true) && !Pending(Listed(db, env, true)[id])
    ensures Listed(db, env, true)[id].fundingStatus == Created
  {
  }

  /** A project whose transaction was mined but whose status update failed
      stays pending: the next cycle submits `createProject` for it again. */
  lemma LostUpdateResubmits(db: Table, env: Environment, id: int)
    requires id in db && Pending(db[id]) && Submitted(env, id, db[id]) && !env.dbOk(id)
    ensures id in Listed(db, env, true) && id in PendingIds(Listed(db, env, true))
  {
  }

  /** A cycle only ever moves a row from `not listed` to `created`, and only
      an accepted one; no other column changes. */
  lemma ListingMovesOnlyNotListed(db: Table, env: Environment, selectOk: bool, id: int)
    requires id in db
    ensures id in Listed(db, env, selectOk)
    ensures var p := Listed(db, env, selectOk)[id];
              p == db[id] || (Pending(db[id]) && p == db[id].(fundingStatus := Created))
  {
  }
}

=== FILE: hex.dfy ===
/** `secrets.token_hex(n)`: `n` random bytes written as `2n` lower-case
    hexadecimal digits. The randomness is an input; the encoding is modelled. */
module Hex {
  import opened Outcomes

  type byte = x: int | 0 <= x < 256

  /** A digit of `0123456789abcdef`. */
  predicate IsHexDigit(c: char) {
    '0' <= c <= '9' || 'a' <= c <= 'f'
  }

  function HexDigit(n: int): (c: char)
    requires 0 <= n < 16
    ensures IsHexDigit(c)
  {
    if n < 10 then ('0' as int + n) as char else ('a' as int + n - 10) as char
  }

  /** The value of one lower-case hexadecimal digit, if it is one. */
  function DigitValue(c: char): (r: Option<int>)
    ensures r.Some? <==> IsHexDigit(c)
    ensures r.Some? ==> 0 <= r.value < 16 && HexDigit(r.value) == c
  {
    if '0' <= c <= '9' then Some(c as int - '0' as int)
    else if 'a' <= c <= 'f' then Some(c as int - 'a' as int + 10)
    else None
  }

  /** The hexadecimal text of `bytes`, two digits per byte, high nibble first. */
  function TokenHex(bytes: seq<byte>): (r: string)
    ensures |r| == 2 * |bytes|
    ensures forall i :: 0 <= i < |r| ==> IsHexDigit(r[i])
  {
    if bytes == [] then []
    else [HexDigit(bytes[0] / 16), HexDigit(bytes[0] % 16)] + TokenHex(bytes[1..])
  }

  /** Reads hexadecimal text back into bytes; fails on odd length or a non-digit. */
  function DecodeHex(s: string): (r: Option<seq<byte>>)
    ensures r.Some? ==> 2 * |r.value| == |s|
    decreases |s|
  {
    if s == [] then Some([])
    else if |s| == 1 then None
    else
      match (DigitValue(s[0]), DigitValue(s[1]), DecodeHex(s[2..]))
      case (Some(hi), Some(lo), Some(rest)) => Some([hi * 16 + lo] + rest)
      case _ => None
  }

  lemma NibbleRoundTrip(n: int)
    requires 0 <= n < 16
    ensures DigitValue(HexDigit(n)) == Some(n)
  {
  }

  /** Hex text decodes back to the bytes it was made from, so distinct
      entropy always yields distinct tokens. */
  lemma {:induction false} DecodeTokenHex(bytes: seq<byte>)
    ensures DecodeHex(TokenHex(bytes)) == Some(bytes)
  {
    if bytes != [] {
      var b := bytes[0];
      var t := TokenHex(bytes);
      assert t[2..] == TokenHex(bytes[1..]);
      DecodeTokenHex(bytes[1..]);
      NibbleRoundTrip(b / 16);
      NibbleRoundTrip(b % 16);
      assert [b] + bytes[1..] == bytes;
    }
  }

  lemma TokenHexInjective(a: seq<byte>, b: seq<byte>)
    requires TokenHex(a) == TokenHex(b)
    ensures a == b
  {
    DecodeTokenHex(a);
    DecodeTokenHex(b);
  }
}

=== FILE: ledger.dfy ===
/** The ledger writer of the event scanner: how one InvestmentMade,
    VoteCast or Refunded log becomes rows of the `investor` and
    `transaction` tables (scanner_transaction_cronjob.py). */
module Ledger {
  import opened Outcomes
  import opened Text
  import opened Units

  /** A decoded contract log. `block` is the block that holds it; its
      timestamp becomes the row's time. */
  datatype Event =
    | InvestmentMade(projectId: nat, investor: string, amount: nat, tokensToReceive: nat, txHash: string, block: nat)
    | VoteCast(projectId: nat, voter: string, txHash: string, block: nat)
    | Refunded(projectId: nat, investor: string, amount: nat, txHash: string, block: nat)
  {
    /** The wallet the event is about (the investor, or the voter). */
    function Account(): string {
      if VoteCast? then voter else investor
    }
  }

  /** The `type` column of a transaction row. */
  datatype TxType = Investment | Vote | GetRefund

  function TypeName(t: TxType): string {
    match t
    case Investment => "investment"
    case Vote => "vote"
    case GetRefund => "get_refund"
  }

  /** A `transaction` row; `None` is SQL NULL. */
  datatype TxRow = TxRow(
    projectId: nat,
    investorAddress: string,
    amount: Option<real>,
    tokenReceived: Option<nat>,
    time: nat,
    txHash: string,
    kind: TxType
  )

  /** The two tables the scanner writes: the set of known investor wallets
      (`wallet_address` is unique) and the append-only transaction log. */
  datatype Ledger = Ledger(investors: set<string>, transactions: seq<TxRow>)

  /** Where the writing of one event stopped.
      `FailedBeforeInvestor`: the receipt or block lookup raised, no database
      connection was obtained, or the investor statement failed.
      `FailedAfterInvestor`: the investor row was committed and then the
      transaction insert raised. */
  datatype WriteFault = Written | FailedBeforeInvestor | FailedAfterInvestor

  /** The transaction row inserted for event `e` in a block stamped `time`. */
  function RowOf(e: Event, time: nat): TxRow {
    match e
    case InvestmentMade(p, a, amt, tok, h, _) =>
      TxRow(p, Lower(a), Some(FromRaw(amt)), Some(tok), time, h, Investment)
    case VoteCast(p, a, h, _) =>
      TxRow(p, Lower(a), None, None, time, h, Vote)
    case Refunded(p, a, amt, h, _) =>
      TxRow(p, Lower(a), Some(FromRaw(amt)), None, time, h, GetRefund)
  }

  /** Reads a row back as the event that produced it, given the block. */
  function EventOfRow(row: TxRow, block: nat): Option<Event> {
    match row.kind
    case Investment =>
      if row.amount.Some? && row.tokenReceived.Some? && ToRaw(row.amount.value) >= 0 then
        Some(InvestmentMade(row.projectId, row.investorAddress, ToRaw(row.amount.value),
                            row.tokenReceived.value, row.txHash, block))
      else None
    case Vote =>
      if row.amount.None? && row.tokenReceived.None? then
        Some(VoteCast(row.projectId, row.investorAddress, row.txHash, block))
      else None
    case GetRefund =>
      if row.amount.Some? && row.tokenReceived.None? && ToRaw(row.amount.value) >= 0 then
        Some(Refunded(row.projectId, row.investorAddress, ToRaw(row.amount.value), row.txHash, block))
      else None
  }

  /** The row keeps everything the event carried except the letter case of
      the wallet: the event is recovered from the row with its address
      lower-cased. Amounts survive the division by 10^6, token counts are
      kept on investments only, and votes carry no amount. */
  lemma RowRecoversEvent(e: Event, time: nat)
    ensures EventOfRow(RowOf(e, time), e.block) == Some(
      match e
      case InvestmentMade(p, a, amt, tok, h, b) => InvestmentMade(p, Lower(a), amt, tok, h, b)
      case VoteCast(p, a, h, b) => VoteCast(p, Lower(a), h, b)
      case Refunded(p, a, amt, h, b) => Refunded(p, Lower(a), amt, h, b))
    ensures RowOf(e, time).time == time && IsLower(RowOf(e, time).investorAddress)
    ensures TypeName(RowOf(e, time).kind) ==
      (if e.InvestmentMade? then "investment" else if e.VoteCast? then "vote" else "get_refund")
  {
    match e
    case InvestmentMade(_, _, amt, _, _, _) => ToRawFromRaw(amt);
    case VoteCast(_, _, _, _) =>
    case Refunded(_, _, amt, _, _) => ToRawFromRaw(amt);
  }

  /** One `process_*_event` call: the new tables and the returned flag.
      The investor insert is insert-if-absent; the transaction insert is
      unconditional, with no check for an existing row of the same hash. */
  function Process(db: Ledger, e: Event, fault: WriteFault, time: nat): (r: (Ledger, bool))
    ensures r.1 <==> fault == Written
    ensures fault == FailedBeforeInvestor ==> r.0 == db
    ensures fault != FailedBeforeInvestor ==> r.0.investors == db.investors + {Lower(e.Account())}
    ensures fault == Written ==> r.0.transactions == db.transactions + [RowOf(e, time)]
    ensures fault != Written ==> r.0.transactions == db.transactions
  {
    var investors := if Lower(e.Account()) in db.investors then db.investors
                     else db.investors + {Lower(e.Account())};
    match fault
    case FailedBeforeInvestor => (db, false)
    case FailedAfterInvestor => (Ledger(investors, db.transactions), false)
    case Written => (Ledger(investors, db.transactions + [RowOf(e, time)]), true)
  }

  /** Seeing the same wallet again leaves the investor table as it is, and a
      second write of the same event adds a second, identical row. */
  lemma ProcessTwice(db: Ledger, e: Event, time: nat)
    ensures var once := Process(db, e, Written, time).0;
            var twice := Process(once, e, Written, time).0;
            && twice.investors == once.investors
            && twice.transactions == db.transactions + [RowOf(e, time), RowOf(e, time)]
  {
  }

  /** The rows a run of events appends, in processing order. */
  function Rows(es: seq<Event>, fault: Event -> WriteFault, time: nat -> nat): (r: seq<TxRow>)
    ensures forall i :: 0 <= i < |r| ==> IsLower(r[i].investorAddress)
  {
    if es == [] then []
    else
      (if fault(es[0]) == Written then [RowOf(es[0], time(es[0].block))] else [])
      + Rows(es[1..], fault, time)
  }

  /** The wallets a run of events leaves in the investor table. */
  function Touched(es: seq<Event>, fault: Event -> WriteFault): set<string> {
    set e | e in es && fault(e) != FailedBeforeInvestor :: Lower(e.Account())
  }

  /** The per-event loops of one chunk: every event is written in turn, and a
      failed write is skipped without affecting the others. */
  function ApplyEvents(db: Ledger, es: seq<Event>, fault: Event -> WriteFault, time: nat -> nat): Ledger
    decreases |es|
  {
    if es == [] then db
    else ApplyEvents(Process(db, es[0], fault(es[0]), time(es[0].block)).0, es[1..], fault, time)
  }

  lemma TouchedSplit(es: seq<Event>, fault: Event -> WriteFault)
    requires es != []
    ensures Touched(es, fault) == Touched([es[0]], fault) + Touched(es[1..], fault)
  {
    forall x | x in es
      ensures x == es[0] || x in es[1..]
    {
    }
  }

  /** The investor table after a run of events: exactly the touched wallets
      are added. */
  lemma {:induction false} ApplyEventsInvestors(db: Ledger, es: seq<Event>, fault: Event -> WriteFault, time: nat -> nat)
    ensures ApplyEvents(db, es, fault, time).investors == db.investors + Touched(es, fault)
    decreases |es|
  {
    if es == [] {
      assert Touched(es, fault) == {};
    } else {
      var e := es[0];
      var next := Process(db, e, fault(e), time(e.block)).0;
      assert ApplyEvents(db, es, fault, time) == ApplyEvents(next, es[1..], fault, time);
      ApplyEventsInvestors(next, es[1..], fault, time);
      TouchedSplit(es, fault);
      assert next.investors == db.investors + Touched([e], fault) by {
        if fault(e) == FailedBeforeInvestor {
          assert Touched([e], fault) == {};
        } else {
          assert Touched([e], fault) == {Lower(e.Account())};
        }
      }
    }
  }

  /** The transaction log after a run of events: exactly the rows of the
      written events are appended, in order, after the existing rows. */
  lemma {:induction false} ApplyEventsRows(db: Ledger, es: seq<Event>, fault: Event -> WriteFault, time: nat -> nat)
    ensures ApplyEvents(db, es, fault, time).transactions == db.transactions + Rows(es, fault, time)
    decreases |es|
  {
    if es != [] {
      var e := es[0];
      var next := Process(db, e, fault(e), time(e.block)).0;
      assert ApplyEvents(db, es, fault, time) == ApplyEvents(next, es[1..], fault, time);
      ApplyEventsRows(next, es[1..], fault, time);
      var head := if fault(e) == Written then [RowOf(e, time(e.block))] else [];
      assert next.transactions == db.transactions + head;
      assert Rows(es, fault, time) == head + Rows(es[1..], fault, time);
      assert (db.transactions + head) + Rows(es[1..], fault, time)
          == db.transactions + (head + Rows(es[1..], fault, time));
    }
  }

  /** Writing the same events a second time (a chunk re-applied after a
      restart) adds no investor but appends every written row again. */
  lemma ReplayDuplicatesRows(db: Ledger, es: seq<Event>, fault: Event -> WriteFault, time: nat -> nat)
    ensures var once := ApplyEvents(db, es, fault, time);
            var twice := ApplyEvents(once, es, fault, time);
            && twice.investors == once.investors
            && twice.transactions == once.transactions + Rows(es, fault, time)
  {
    var once := ApplyEvents(db, es, fault, time);
    ApplyEventsInvestors(db, es, fault, time);
    ApplyEventsInvestors(once, es, fault, time);
    ApplyEventsRows(once, es, fault, time);
  }
}

=== FILE: lifecycle.dfy ===
/** The funding-status lifecycle that the three writers of the `project`
    table produce together: the on-chain lister, the reconciler and the
    moderation route. */
module Lifecycle {
  import opened Records
  import Reconciler
  import Creation
  import Admin

  /** The status moves any writer can make: staying put, `not listed` to
      `created`, and from raising or voting to any chain-driven state.
      `created`, `failed` and `completed` are never left. */
  predicate Moves(a: FundingStatus, b: FundingStatus) {
    || a == b
    || (a == NotListed && b == Created)
    || ((a == Raising || a == Voting) && (b == Raising || b == Voting || b == Failed || b == Completed))
  }

  /** Doing several moves in a row is again a move. */
  lemma MovesTransitive(a: FundingStatus, b: FundingStatus, c: FundingStatus)
    requires Moves(a, b) && Moves(b, c)
    ensures Moves(a, c)
  {
  }

  /** One write to the table by one of the writers. */
  datatype Write =
    | Reconcile(renv: Reconciler.Environment, selectOk: bool)
    | ListOnChain(cenv: Creation.Environment, selectOk: bool)
    | Moderate(id: int, form: Admin.ActionForm, fault: Admin.DbFault)

  function Apply(db: Table, w: Write): Table {
    match w
    case Reconcile(env, ok) => Reconciler.Reconciled(db, env, ok)
    case ListOnChain(env, ok) => Creation.Listed(db, env, ok)
    case Moderate(id, form, fault) => Admin.UpdateProjectHandler(db, id, form, fault).0
  }

  /** The table after a sequence of writes, in order. */
  function Run(db: Table, ws: seq<Write>): Table
    decreases |ws|
  {
    if ws == [] then db else Run(Apply(db, ws[0]), ws[1..])
  }

  /** Every single write keeps the rows and moves each status along
      `Moves`. */
  lemma WriteMoves(db: Table, w: Write, id: int)
    requires id in db
    ensures id in Apply(db, w)
    ensures Moves(db[id].fundingStatus, Apply(db, w)[id].fundingStatus)
  {
    match w
    case Reconcile(env, ok) =>
      Reconciler.ReconcileStatusMoves(db, env, ok, id);
    case ListOnChain(env, ok) =>
      Creation.ListingMovesOnlyNotListed(db, env, ok, id);
    case Moderate(target, form, fault) =>
      if target == id && fault == Admin.NoFault {
        Admin.ModerationKeepsFunding(db[id], Admin.ParseAction(form.action), form.comment.GetOr(""));
      }
  }

  /** Any interleaving of the writers' whole passes moves each status along
      `Moves`. Each write here is one complete pass, so the finer interleaving
      of single row updates inside concurrent reconciler and lister passes is
      not modelled. */
  lemma {:induction false} RunMoves(db: Table, ws: seq<Write>, id: int)
    requires id in db
    ensures id in Run(db, ws)
    ensures Moves(db[id].fundingStatus, Run(db, ws)[id].fundingStatus)
    decreases |ws|
  {
    if ws != [] {
      var next := Apply(db, ws[0]);
      WriteMoves(db, ws[0], id);
      RunMoves(next, ws[1..], id);
      MovesTransitive(db[id].fundingStatus, next[id].fundingStatus, Run(next, ws[1..])[id].fundingStatus);
    }
  }

  /** Nothing the writers do takes a project from `not listed` or `created`
      into raising: a project the lister creates stays `created` for good. */
  lemma CreatedNeverRaises(db: Table, ws: seq<Write>, id: int)
    requires id in db && db[id].fundingStatus in {NotListed, Created}
    ensures id in Run(db, ws)
    ensures Run(db, ws)[id].fundingStatus in {NotListed, Created}
    ensures db[id].fundingStatus == Created ==> Run(db, ws)[id].fundingStatus == Created
  {
    RunMoves(db, ws, id);
  }

  /** `failed` and `completed` are final under any sequence of whole
      passes. */
  lemma OutcomesFinal(db: Table, ws: seq<Write>, id: int)
    requires id in db && db[id].fundingStatus in {Failed, Completed}
    ensures id in Run(db, ws) && Run(db, ws)[id].fundingStatus == db[id].fundingStatus
  {
    RunMoves(db, ws, id);
  }
}

=== FILE: outcomes.dfy ===
/** Failure-carrying wrappers shared by the model: Python's `None`, the
    JavaScript `null` result of a failed wallet call, and error returns. */
module Outcomes {

  /** A value that may be absent. */
  datatype Option<+T> = None | Some(value: T) {

    /** The wrapped value, or `default` when absent (Python's `d.get(k, default)`). */
    function GetOr(default: T): (r: T)
      ensures Some? ==> r == value
      ensures None? ==> r == default
    {
      match this
      case Some(v) => v
      case None => default
    }
  }

  /** A computation that either produced a value or raised an error with a message. */
  datatype Result<+T> = Ok(value: T) | Err(message: string)

  /** A non-empty set has an element (the choice a loop over a query result
      makes). */
  lemma Member<T>(s: set<T>) returns (x: T)
    requires s != {}
    ensures x in s
  {
    if forall y :: y !in s {
      assert false;
    }
    x :| x in s;
  }
}

=== FILE: reconciler.dfy ===
/** The project-state reconciler of update_project_cronjob.py: every cycle it
    selects the accepted projects that are raising or voting, reads each one's
    details from the funding contract and copies five of them into the row. */
module Reconciler {
  import opened Outcomes
  import opened Units
  import opened Records

  /** The contract's `ProjectStatus` enumeration, in declaration order. */
  datatype ChainStatus = InitialCreated | RaisingPeriod | VotingPeriod | FundingFailed | FundingCompleted

  /** The integer the contract returns for each status. */
  function Code(s: ChainStatus): nat {
    match s
    case InitialCreated => 0
    case RaisingPeriod => 1
    case VotingPeriod => 2
    case FundingFailed => 3
    case FundingCompleted => 4
  }

  /** The status text written for a contract status code: voting, failed and
      completed map to their own state and every other code, including the
      initial-created code 0 and codes outside the enumeration, to raising. */
  function DbStatus(status: nat): (r: FundingStatus)
    ensures r != NotListed && r != Created
    ensures r in {Raising, Voting, Failed, Completed}
    ensures status == Code(VotingPeriod) ==> r == Voting
    ensures status == Code(FundingFailed) ==> r == Failed
    ensures status == Code(FundingCompleted) ==> r == Completed
    ensures status !in {Code(VotingPeriod), Code(FundingFailed), Code(FundingCompleted)} ==> r == Raising
  {
    if status == Code(VotingPeriod) then Voting
    else if status == Code(FundingFailed) then Failed
    else if status == Code(FundingCompleted) then Completed
    else Raising
  }

  /** The enumeration as the database sees it: each contract state lands on
      the off-chain state of the same name, the initial one on raising, and
      distinct codes above raising stay distinct. */
  lemma DbStatusOfCode(s: ChainStatus)
    ensures DbStatus(Code(s)) ==
              match s
              case InitialCreated => Raising
              case RaisingPeriod => Raising
              case VotingPeriod => Voting
              case FundingFailed => Failed
              case FundingCompleted => Completed
    ensures forall t: ChainStatus :: Code(t) >= 1 && Code(s) >= 1 && DbStatus(Code(s)) == DbStatus(Code(t)) ==> s == t
  {
  }

  /** A value in the `getProjectDetails` return tuple. */
  datatype AbiValue = Address(addr: string) | Uint(n: nat)

  /** The outputs of `getProjectDetails`, named as in the contract ABI. */
  datatype ProjectDetails = ProjectDetails(
    raiser: string,
    tokenAddress: string,
    tokensToSell: nat,
    tokensSold: nat,
    tokenPrice: nat,
    endFundingTime: nat,
    fundsRaised: nat,
    status: nat,
    investorsCount: nat,
    votersForRefundCount: nat,
    voteForRefund: nat
  )

  /** The tuple web3 returns, positions in ABI output order. */
  function AsTuple(d: ProjectDetails): (t: seq<AbiValue>)
    ensures |t| == 11
  {
    [Address(d.raiser), Address(d.tokenAddress), Uint(d.tokensToSell), Uint(d.tokensSold),
     Uint(d.tokenPrice), Uint(d.endFundingTime), Uint(d.fundsRaised), Uint(d.status),
     Uint(d.investorsCount), Uint(d.votersForRefundCount), Uint(d.voteForRefund)]
  }

  /** The five values the loop unpacks by position. */
  datatype Unpacked = Unpacked(tokensSold: nat, fundsRaised: nat, status: nat, votersCount: nat, voteForRefund: nat)

  /** Positional unpacking of an eleven-value tuple, keeping positions 3, 6,
      7, 9 and 10; `None` when a kept position is not an integer. */
  function Unpack(t: seq<AbiValue>): Option<Unpacked>
    requires |t| == 11
  {
    if t[3].Uint? && t[6].Uint? && t[7].Uint? && t[9].Uint? && t[10].Uint?
    then Some(Unpacked(t[3].n, t[6].n, t[7].n, t[9].n, t[10].n))
    else None
  }

  /** Unpacking by position yields the ABI fields of the same name: the
      refund voter count is `votersForRefundCount` and the refund vote weight
      is `voteForRefund`. */
  lemma UnpackAbiOrder(d: ProjectDetails)
    ensures Unpack(AsTuple(d)) ==
              Some(Unpacked(d.tokensSold, d.fundsRaised, d.status, d.votersForRefundCount, d.voteForRefund))
  {
  }

  /** The columns of a row that the reconciler does not write are equal. */
  predicate SameOffChainColumns(p: Project, q: Project) {
    && p.raiserId == q.raiserId
    && p.fundingAddress == q.fundingAddress
    && p.tokenAddress == q.tokenAddress
    && p.tokenToSell == q.tokenToSell
    && p.tokenPrice == q.tokenPrice
    && p.investmentEndTime == q.investmentEndTime
    && p.decimal == q.decimal
    && p.listingStatus == q.listingStatus
    && p.editable == q.editable
    && p.platformComment == q.platformComment
    && p.hidden == q.hidden
    && p.feeClaimed == q.feeClaimed
  }

  /** The row after the `UPDATE` with the values the loop unpacked. */
  function Refresh(p: Project, u: Unpacked): (r: Project)
    ensures SameOffChainColumns(p, r)
    ensures r.tokenSold == u.tokensSold
    ensures r.fundRaised * Scale as real == u.fundsRaised as real
    ensures r.fundingStatus == DbStatus(u.status)
    ensures r.voteForRefund == u.voteForRefund
    ensures r.voteForRefundCount == u.votersCount
  {
    p.(tokenSold := u.tokensSold,
       fundRaised := FromRaw(u.fundsRaised),
       fundingStatus := DbStatus(u.status),
       voteForRefund := u.voteForRefund,
       voteForRefundCount := u.votersCount)
  }

  /** Writing the same chain values twice changes nothing the first write
      did not. */
  lemma RefreshIdempotent(p: Project, u: Unpacked)
    ensures Refresh(Refresh(p, u), u) == Refresh(p, u)
  {
  }

  /** `update_project_in_database`. `ok` is false when connecting or the
      statement fails, which leaves the table as it was; an id with no row
      updates nothing and still reports success. */
  function UpdateProjectInDatabase(db: Table, id: int, u: Unpacked, ok: bool): (r: (Table, bool))
    ensures r.1 == ok
    ensures r.0.Keys == db.Keys
    ensures ok && id in db ==> r.0[id] == Refresh(db[id], u)
    ensures forall k :: k in db && (k != id || !ok) ==> r.0[k] == db[k]
  {
    if !ok then (db, false)
    else if id !in db then (db, true)
    else (db[id := Refresh(db[id], u)], true)
  }

  /** The `get_active_projects` query: accepted projects that are raising or
      voting. */
  predicate Active(p: Project) {
    p.listingStatus == Accepted && (p.fundingStatus == Raising || p.fundingStatus == Voting)
  }

  function ActiveIds(db: Table): (r: set<int>)
    ensures forall id :: id in r <==> id in db && Active(db[id])
  {
    set id | id in db && Active(db[id])
  }

  /** How a cycle's calls for one project end: `fetch(id)` is the contract
      call (`None` when it raised), `writeOk(id)` whether the database write
      went through. */
  datatype Environment = Environment(fetch: int -> Option<ProjectDetails>, writeOk: int -> bool)

  /** Whether the cycle's update for `id` reaches the database. */
  predicate Lands(env: Environment, id: int) {
    env.fetch(id).Some? && env.writeOk(id)
  }

  function Values(env: Environment, id: int): Unpacked
    requires env.fetch(id).Some?
  {
    var d := env.fetch(id).value;
    Unpacked(d.tokensSold, d.fundsRaised, d.status, d.votersForRefundCount, d.voteForRefund)
  }

  /** What one row holds after a cycle: refreshed when it was selected and
      its update landed, as before otherwise. A failed selection selects
      nothing. */
  function Target(db: Table, env: Environment, selectOk: bool, id: int): Project
    requires id in db
  {
    if selectOk && Active(db[id]) && Lands(env, id) then Refresh(db[id], Values(env, id)) else db[id]
  }

  /** The table after one cycle, as a reference. */
  function Reconciled(db: Table, env: Environment, selectOk: bool): Table {
    map id | id in db :: Target(db, env, selectOk, id)
  }

  /** The body of the `for` loop for one selected project: fetch, and when
      that succeeded, unpack and write. The write's success flag is ignored. */
  function SyncProject(db: Table, env: Environment, id: int): (r: Table)
    ensures r.Keys == db.Keys
    ensures id in db ==> r[id] == if Lands(env, id) then Refresh(db[id], Values(env, id)) else db[id]
    ensures forall k :: k in db && k != id ==> r[k] == db[k]
  {
    match env.fetch(id)
    case None => db
    case Some(details) =>
      UnpackAbiOrder(details);
      var u := Unpack(AsTuple(details)).value;
      UpdateProjectInDatabase(db, id, u, env.writeOk(id)).0
  }

  /** One pass of the `while True` body: select, then refresh each selected
      project. Rows are visited in whatever order the query returns them. */
  method ReconcileOnce(db: Table, env: Environment, selectOk: bool) returns (db': Table)
    ensures db' == Reconciled(db, env, selectOk)
  {
    var remaining: set<int> := if selectOk then ActiveIds(db) else {};
    ghost var selected := remaining;
    db' := db;
    while remaining != {}
      invariant remaining <= selected
      invariant db'.Keys == db.Keys
      invariant forall k :: k in remaining ==> k in db && db'[k] == db[k]
      invariant forall k :: k in db && k !in remaining ==> db'[k] == Target(db, env, selectOk, k)
      decreases remaining
    {
      ghost var some := Member(remaining);
      var id :| id in remaining;
      db' := SyncProject(db', env, id);
      remaining := remaining - {id};
    }
    assert forall id :: id in db ==> db'[id] == Reconciled(db, env, selectOk)[id];
  }

  /** Rows outside the selection are never written. */
  lemma InactiveUntouched(db: Table, env: Environment, selectOk: bool, id: int)
    requires id in db && !Active(db[id])
    ensures id in Reconciled(db, env, selectOk) && Reconciled(db, env, selectOk)[id] == db[id]
  {
  }

  /** A cycle never writes `created` or `not listed`, and never moves a row
      out of `created`, `failed` or `completed`; only the four chain-driven
      columns and the status change. */
  lemma ReconcileStatusMoves(db: Table, env: Environment, selectOk: bool, id: int)
    requires id in db
    ensures id in Reconciled(db, env, selectOk)
    ensures var p := Reconciled(db, env, selectOk)[id];
              && SameOffChainColumns(db[id], p)
              && (db[id].fundingStatus in {NotListed, Created, Failed, Completed} ==> p == db[id])
              && (p.fundingStatus in {NotListed, Created} ==> p.fundingStatus == db[id].fundingStatus)
  {
  }

  /** With the chain unchanged and every write landing, a second cycle finds
      nothing to change: the reconciled table is a fixed point. */
  lemma ReconcileConverges(db: Table, env: Environment)
    requires forall id :: env.writeOk(id)
    ensures Reconciled(Reconciled(db, env, true), env, true) == Reconciled(db, env, true)
  {
    var once := Reconciled(db, env, true);
    forall id | id in db
      ensures Reconciled(once, env, true)[id] == once[id]
    {
      if Active(db[id]) && Lands(env, id) {
        RefreshIdempotent(db[id], Values(env, id));
      }
    }
  }
}

=== FILE: records.dfy ===
/** The `project` table as an immutable value: rows keyed by project id,
    which is also the project's id on the funding contract. */
module Records {

  /** Human moderation state (`listing_status`). */
  datatype ListingStatus = Pending | Accepted | Rejected

  /** Off-chain funding state (`funding_status`). */
  datatype FundingStatus = NotListed | Created | Raising | Voting | Failed | Completed

  /** The text stored in the `funding_status` column. */
  function StatusName(s: FundingStatus): string {
    match s
    case NotListed => "not listed"
    case Created => "created"
    case Raising => "raising"
    case Voting => "voting"
    case Failed => "failed"
    case Completed => "completed"
  }

  /** Distinct states are stored as distinct strings, so filtering on the
      column text selects exactly one state. */
  lemma StatusNameInjective(a: FundingStatus, b: FundingStatus)
    ensures StatusName(a) == StatusName(b) <==> a == b
  {
  }

  /** The columns of a `project` row that the model reads or writes. */
  datatype Project = Project(
    raiserId: int,
    fundingAddress: string,
    tokenAddress: string,
    tokenToSell: nat,
    tokenPrice: real,
    investmentEndTime: nat,
    decimal: nat,
    listingStatus: ListingStatus,
    fundingStatus: FundingStatus,
    tokenSold: nat,
    fundRaised: real,
    voteForRefund: nat,
    voteForRefundCount: nat,
    editable: bool,
    platformComment: string,
    hidden: bool,
    feeClaimed: bool
  )

  type Table = map<int, Project>
}

=== FILE: scanner.dfy ===
/** The block scanner of scanner_transaction_cronjob.py: reads the
    checkpoint, splits the unscanned blocks into chunks of at most 1999
    blocks, writes the events of each chunk and saves the chunk's end as the
    new checkpoint. */
module Scanner {
  import opened Outcomes
  import opened Ledger
  import opened Arith

  const ChunkSize: nat := 1999

  /** What `last_processed_block.json` holds when it is read. */
  datatype CheckpointFile =
    | Missing
    | Unreadable                        // open or JSON parsing raised
    | Stored(lastBlock: Option<nat>)    // a JSON object, with or without `last_block`

  /** `get_last_processed_block`: the saved block, or 0 when there is none. */
  function LastProcessedBlock(f: CheckpointFile): (r: nat)
    ensures f.Stored? && f.lastBlock.Some? ==> r == f.lastBlock.value
    ensures !(f.Stored? && f.lastBlock.Some?) ==> r == 0
  {
    match f
    case Stored(b) => b.GetOr(0)
    case _ => 0
  }

  /** An inclusive block range `[lo, hi]`. */
  datatype Range = Range(lo: nat, hi: nat)

  /** The chunks the scan loop visits for blocks `start..head`: they follow
      one another without gap or overlap from `start` to `head`, each is
      non-empty, none spans more than 1999 blocks, and all but the last span
      exactly 1999. */
  function Chunks(start: nat, head: nat): (r: seq<Range>)
    ensures r == [] <==> start > head
    ensures r != [] ==> r[0].lo == start && r[|r| - 1].hi == head
    ensures forall i :: 0 <= i < |r| ==> r[i].lo <= r[i].hi && r[i].hi - r[i].lo + 1 <= ChunkSize
    ensures forall i :: 0 <= i < |r| - 1 ==> r[i].hi - r[i].lo + 1 == ChunkSize
    ensures forall i :: 0 <= i < |r| - 1 ==> Follows(r, i)
    decreases if start <= head then head - start + 1 else 0
  {
    if start > head then []
    else
      var end := Min(start + ChunkSize - 1, head);
      var rest := Chunks(end + 1, head);
      FollowsCons(Range(start, end), rest);
      [Range(start, end)] + rest
  }

  /** Range `i + 1` of `c` starts right after range `i` ends. */
  predicate Follows(c: seq<Range>, i: int)
    requires 0 <= i < |c| - 1
  {
    c[i + 1].lo == c[i].hi + 1
  }

  lemma FollowsCons(x: Range, c: seq<Range>)
    requires c != [] ==> c[0].lo == x.hi + 1
    requires forall i :: 0 <= i < |c| - 1 ==> Follows(c, i)
    ensures forall i :: 0 <= i < |[x] + c| - 1 ==> Follows([x] + c, i)
  {
    forall i | 0 <= i < |[x] + c| - 1
      ensures Follows([x] + c, i)
    {
      if i > 0 {
        assert Follows(c, i - 1);
      }
    }
  }

  lemma ChunksUnfold(start: nat, head: nat)
    requires start <= head
    ensures Chunks(start, head)
         == [Range(start, Min(start + ChunkSize - 1, head))] + Chunks(Min(start + ChunkSize - 1, head) + 1, head)
  {
  }

  /** The `k`-th chunk starts `k * 1999` blocks after the first. */
  lemma {:induction false} ChunkAt(first: nat, head: nat, k: nat)
    requires first + k * ChunkSize <= head
    ensures k < |Chunks(first, head)|
    ensures Chunks(first, head)[k] == Range(first + k * ChunkSize, Min(first + k * ChunkSize + ChunkSize - 1, head))
    decreases k
  {
    ChunksUnfold(first, head);
    if k > 0 {
      ChunkAt(first + ChunkSize, head, k - 1);
    }
  }

  /** There are as many chunks as 1999-block steps needed to pass the head. */
  lemma {:induction false} ChunkCount(first: nat, head: nat, k: nat)
    requires head < first + k * ChunkSize
    requires k == 0 || first + (k - 1) * ChunkSize <= head
    ensures |Chunks(first, head)| == k
    decreases k
  {
    if k > 0 {
      ChunksUnfold(first, head);
      ChunkCount(first + ChunkSize, head, k - 1);
    }
  }

  /** Chunk ends strictly increase: each saved checkpoint is beyond the last. */
  lemma {:induction false} ChunkEndsIncrease(start: nat, head: nat, i: int, j: int)
    requires 0 <= i < j < |Chunks(start, head)|
    ensures Chunks(start, head)[i].hi < Chunks(start, head)[j].hi
    ensures Chunks(start, head)[i].hi < Chunks(start, head)[j].lo
    decreases j - i
  {
    var c := Chunks(start, head);
    assert Follows(c, i);
    if j > i + 1 {
      ChunkEndsIncrease(start, head, i + 1, j);
    }
  }

  /** Block `b` lies in the `i`-th range of `c`. */
  predicate InChunk(c: seq<Range>, i: int, b: nat) {
    0 <= i < |c| && c[i].lo <= b <= c[i].hi
  }

  lemma {:induction false} ChunkWithin(start: nat, head: nat, i: int)
    requires 0 <= i < |Chunks(start, head)|
    ensures start <= Chunks(start, head)[i].lo <= Chunks(start, head)[i].hi <= head
  {
    var c := Chunks(start, head);
    if i > 0 {
      ChunkEndsIncrease(start, head, 0, i);
    }
    if i < |c| - 1 {
      ChunkEndsIncrease(start, head, i, |c| - 1);
    }
  }

  /** Every block of `start..head` lies in some chunk, and no chunk holds a
      block outside `start..head`. */
  lemma {:induction false} ChunksCover(start: nat, head: nat, b: nat)
    ensures start <= b <= head <==> exists i :: InChunk(Chunks(start, head), i, b)
  {
    var c := Chunks(start, head);
    if start <= b <= head {
      CoveredBy(c, start, head, b);
      var i :| 0 <= i < |c| && c[i].lo <= b <= c[i].hi;
      assert InChunk(c, i, b);
    }
    if exists i :: InChunk(c, i, b) {
      var i :| InChunk(c, i, b);
      ChunkWithin(start, head, i);
    }
  }

  /** No block lies in two chunks. */
  lemma {:induction false} ChunksDisjoint(start: nat, head: nat, b: nat, i: int, j: int)
    requires InChunk(Chunks(start, head), i, b) && InChunk(Chunks(start, head), j, b)
    ensures i == j
  {
    if i < j {
      ChunkEndsIncrease(start, head, i, j);
    } else if j < i {
      ChunkEndsIncrease(start, head, j, i);
    }
  }

  /** A block between the first chunk's start and the last chunk's end is in
      some chunk of a gap-free sequence of ranges. */
  lemma {:induction false} CoveredBy(c: seq<Range>, start: nat, head: nat, b: nat)
    requires c != [] && c[0].lo == start && c[|c| - 1].hi == head
    requires forall i :: 0 <= i < |c| - 1 ==> Follows(c, i)
    requires start <= b <= head
    ensures exists i :: 0 <= i < |c| && c[i].lo <= b <= c[i].hi
    decreases |c|
  {
    if b > c[0].hi {
      assert Follows(c, 0);
      assert forall i :: 0 <= i < |c[1..]| - 1 ==> Follows(c[1..], i) by {
        forall i | 0 <= i < |c[1..]| - 1
          ensures Follows(c[1..], i)
        {
          assert Follows(c, i + 1);
        }
      }
      CoveredBy(c[1..], c[1].lo, head, b);
      var i :| 0 <= i < |c[1..]| && c[1..][i].lo <= b <= c[1..][i].hi;
      assert c[i + 1].lo <= b <= c[i + 1].hi;
    }
  }

  /** The three event signatures the scanner filters for. */
  datatype EventName = InvestmentMadeName | VoteCastName | RefundedName

  function NameOf(e: Event): EventName {
    match e
    case InvestmentMade(_, _, _, _, _, _) => InvestmentMadeName
    case VoteCast(_, _, _, _) => VoteCastName
    case Refunded(_, _, _, _, _) => RefundedName
  }

  /** The position of an event's kind in the per-chunk processing order. */
  function Rank(n: EventName): nat {
    match n
    case InvestmentMadeName => 0
    case VoteCastName => 1
    case RefundedName => 2
  }

  /** The chain as the scanner sees it: its head and its logs in chain order. */
  datatype Chain = Chain(head: nat, logs: seq<Event>)

  predicate InRange(e: Event, r: Range) {
    r.lo <= e.block <= r.hi
  }

  /** `create_filter(fromBlock, toBlock).get_all_entries()` for one event
      signature: the logs of that kind in the range, in chain order. */
  function Entries(logs: seq<Event>, name: EventName, r: Range): (es: seq<Event>)
    ensures forall i :: 0 <= i < |es| ==> NameOf(es[i]) == name && InRange(es[i], r)
  {
    if logs == [] then []
    else
      (if NameOf(logs[0]) == name && InRange(logs[0], r) then [logs[0]] else [])
      + Entries(logs[1..], name, r)
  }

  /** The filter misses nothing and invents nothing: an event is among the
      entries exactly when it is a log of that kind in the range. */
  lemma {:induction false} EntriesExact(logs: seq<Event>, name: EventName, r: Range, e: Event)
    ensures e in Entries(logs, name, r) <==> e in logs && NameOf(e) == name && InRange(e, r)
  {
    if logs != [] {
      EntriesExact(logs[1..], name, r, e);
      assert e in logs <==> e == logs[0] || e in logs[1..];
    }
  }

  /** The events of one chunk in the order they are written: every
      investment, then every vote, then every refund. */
  function ChunkEvents(logs: seq<Event>, r: Range): seq<Event> {
    Entries(logs, InvestmentMadeName, r) + Entries(logs, VoteCastName, r) + Entries(logs, RefundedName, r)
  }

  /** Within a chunk, investments precede votes and votes precede refunds;
      the chunk's events are exactly the chain's events in its range. */
  lemma ChunkEventsOrdered(logs: seq<Event>, r: Range)
    ensures var es := ChunkEvents(logs, r);
            forall i, j :: 0 <= i < j < |es| ==> Rank(NameOf(es[i])) <= Rank(NameOf(es[j]))
    ensures forall e :: e in ChunkEvents(logs, r) <==> e in logs && InRange(e, r)
  {
    var a := Entries(logs, InvestmentMadeName, r);
    var b := Entries(logs, VoteCastName, r);
    var c := Entries(logs, RefundedName, r);
    var es := a + b + c;
    forall i | 0 <= i < |es|
      ensures Rank(NameOf(es[i])) == if i < |a| then 0 else if i < |a| + |b| then 1 else 2
    {
      if i < |a| {
        assert es[i] == a[i];
      } else if i < |a| + |b| {
        assert es[i] == b[i - |a|];
      } else {
        assert es[i] == c[i - |a| - |b|];
      }
    }
    forall e
      ensures e in es <==> e in logs && InRange(e, r)
    {
      EntriesExact(logs, InvestmentMadeName, r, e);
      EntriesExact(logs, VoteCastName, r, e);
      EntriesExact(logs, RefundedName, r, e);
    }
  }

  /** The database after the events of one chunk have been written. */
  function IngestChunk(db: Ledger, logs: seq<Event>, r: Range, fault: Event -> WriteFault, time: nat -> nat): Ledger {
    ApplyEvents(db, ChunkEvents(logs, r), fault, time)
  }

  /** How one chunk's writes change the database. */
  type StepFn = (Ledger, Range) -> Ledger

  /** Writing one chunk as a step function. */
  function Step(logs: seq<Event>, fault: Event -> WriteFault, time: nat -> nat): StepFn {
    (db: Ledger, r: Range) => IngestChunk(db, logs, r, fault, time)
  }

  /** The database after the chunks `rs` have been processed in turn by `step`. */
  function Fold(db: Ledger, rs: seq<Range>, step: StepFn): Ledger
    decreases |rs|
  {
    if rs == [] then db else Fold(step(db, rs[0]), rs[1..], step)
  }

  /** The database after the chunks `rs` have been scanned in turn. */
  function IngestChunks(db: Ledger, logs: seq<Event>, rs: seq<Range>, fault: Event -> WriteFault, time: nat -> nat): Ledger {
    Fold(db, rs, Step(logs, fault, time))
  }

  lemma {:induction false} FoldSnoc(db: Ledger, rs: seq<Range>, r: Range, step: StepFn)
    ensures Fold(db, rs + [r], step) == step(Fold(db, rs, step), r)
    decreases |rs|
  {
    if rs != [] {
      assert (rs + [r])[1..] == rs[1..] + [r];
      FoldSnoc(step(db, rs[0]), rs[1..], r, step);
    }
  }

  /** `scan_for_events`. `connected` is `web3.is_connected()` together with
      the read of `web3.eth.block_number` succeeding (a failed read also
      ends in the outer handler's `None`); `fetchOk(r)`
      says whether creating and reading the three filters for chunk `r`
      succeeded (a failure propagates to the outer handler, which returns
      `None`); `fault` tells how each event's write ends; `time` maps a
      block to its timestamp. `saved` lists the checkpoints written, in
      order. */
  method ScanForEvents(file: CheckpointFile, connected: bool, chain: Chain, fetchOk: Range -> bool,
                       fault: Event -> WriteFault, time: nat -> nat, db: Ledger)
    returns (result: Option<nat>, saved: seq<nat>, db': Ledger)
    ensures !connected ==> result == None && saved == [] && db' == db
    ensures connected && LastProcessedBlock(file) >= chain.head ==>
              result == Some(chain.head) && saved == [] && db' == db
    ensures connected ==>
              var plan := Chunks(LastProcessedBlock(file) + 1, chain.head);
              && |saved| <= |plan|
              && (forall i :: 0 <= i < |saved| ==> saved[i] == plan[i].hi && fetchOk(plan[i]))
              && (|saved| < |plan| ==> result == None && !fetchOk(plan[|saved|]))
              && (|saved| == |plan| ==> result == Some(chain.head))
              && db' == IngestChunks(db, chain.logs, plan[..|saved|], fault, time)
    ensures result.Some? ==> result.value == chain.head
  {
    if !connected {
      return None, [], db;
    }
    var last := LastProcessedBlock(file);
    var complete;
    complete, saved, db' := ScanChunks(last + 1, chain.head, fetchOk, Step(chain.logs, fault, time), db);
    result := if complete then Some(chain.head) else None;
    ScanOutcome(last + 1, chain.head, complete, saved, fetchOk, chain.logs, fault, time, db, db', result);
  }

  /** Restates a run of the chunk loop in terms of the chunk plan. */
  lemma ScanOutcome(first: nat, head: nat, complete: bool, saved: seq<nat>, fetchOk: Range -> bool,
                    logs: seq<Event>, fault: Event -> WriteFault, time: nat -> nat, db: Ledger, db': Ledger,
                    result: Option<nat>)
    requires ScannedPrefix(first, head, |saved|, complete, fetchOk)
    requires saved == Ends(PlanPrefix(first, head, |saved|))
    requires db' == Fold(db, PlanPrefix(first, head, |saved|), Step(logs, fault, time))
    requires result == if complete then Some(head) else None
    ensures head < first ==> result == Some(head) && saved == [] && db' == db
    ensures var plan := Chunks(first, head);
              && |saved| <= |plan|
              && (forall i :: 0 <= i < |saved| ==> saved[i] == plan[i].hi && fetchOk(plan[i]))
              && (|saved| < |plan| ==> result == None && !fetchOk(plan[|saved|]))
              && (|saved| == |plan| ==> result == Some(head))
              && db' == IngestChunks(db, logs, plan[..|saved|], fault, time)
  {
    PlanPrefixIsChunks(first, head, |saved|, complete, fetchOk);
    ghost var plan := Chunks(first, head);
    ghost var done := PlanPrefix(first, head, |saved|);
    forall i | 0 <= i < |saved|
      ensures saved[i] == plan[i].hi && fetchOk(plan[i])
    {
      assert done[i] == plan[i];
    }
  }

  /** The `k`-th chunk of a scan of `first..head`, in closed form. */
  function ChunkRange(first: nat, head: nat, k: nat): Range {
    Range(first + k * ChunkSize, Min(first + k * ChunkSize + ChunkSize - 1, head))
  }

  /** The first `k` chunks, in the order the loop visits them. */
  function PlanPrefix(first: nat, head: nat, k: nat): (r: seq<Range>)
    ensures |r| == k
    decreases k
  {
    if k == 0 then [] else PlanPrefix(first, head, k - 1) + [ChunkRange(first, head, k - 1)]
  }

  /** The end block of each range. */
  function Ends(rs: seq<Range>): (r: seq<nat>)
    ensures |r| == |rs|
    ensures forall i :: 0 <= i < |rs| ==> r[i] == rs[i].hi
  {
    seq(|rs|, i requires 0 <= i < |rs| => rs[i].hi)
  }

  /** What a run of the chunk loop did, stated in closed form: `k` chunks
      were fetched and folded, the next one (if any) failed to fetch. */
  predicate ScannedPrefix(first: nat, head: nat, k: nat, complete: bool, fetchOk: Range -> bool) {
    && (k == 0 || first + (k - 1) * ChunkSize <= head)
    && (complete <==> head < first + k * ChunkSize)
    && (forall i :: 0 <= i < k ==> fetchOk(PlanPrefix(first, head, k)[i]))
    && (!complete ==> !fetchOk(ChunkRange(first, head, k)))
  }

  /** The closed-form prefix is the prefix of the chunk plan, and a run that
      stopped early stopped at the chunk after it. */
  lemma PlanPrefixIsChunks(first: nat, head: nat, k: nat, complete: bool, fetchOk: Range -> bool)
    requires ScannedPrefix(first, head, k, complete, fetchOk)
    ensures k <= |Chunks(first, head)|
    ensures PlanPrefix(first, head, k) == Chunks(first, head)[..k]
    ensures complete <==> k == |Chunks(first, head)|
    ensures !complete ==> !fetchOk(Chunks(first, head)[k])
  {
    PrefixMatches(first, head, k);
    if complete {
      ChunkCount(first, head, k);
    } else {
      ChunkAt(first, head, k);
    }
  }

  lemma {:induction false} PrefixMatches(first: nat, head: nat, k: nat)
    requires k == 0 || first + (k - 1) * ChunkSize <= head
    ensures k <= |Chunks(first, head)|
    ensures PlanPrefix(first, head, k) == Chunks(first, head)[..k]
    decreases k
  {
    if k > 0 {
      assert k - 1 == 0 || first + (k - 2) * ChunkSize <= head;
      PrefixMatches(first, head, k - 1);
      ChunkAt(first, head, k - 1);
      assert Chunks(first, head)[..k] == Chunks(first, head)[..k - 1] + [Chunks(first, head)[k - 1]];
    }
  }

  /** The `while start_block <= latest_block` loop. `complete` is false when
      fetching a chunk's logs failed, which abandons the scan. */
  method ScanChunks(first: nat, head: nat, fetchOk: Range -> bool,
                    step: StepFn, db: Ledger)
    returns (complete: bool, saved: seq<nat>, db': Ledger)
    ensures ScannedPrefix(first, head, |saved|, complete, fetchOk)
    ensures saved == Ends(PlanPrefix(first, head, |saved|))
    ensures db' == Fold(db, PlanPrefix(first, head, |saved|), step)
  {
    var start := first;
    ghost var done: seq<Range> := [];
    saved := [];
    db' := db;
    while start <= head
      invariant |done| == |saved|
      invariant start <= head ==> start == first + |saved| * ChunkSize
      invariant start > head ==> head < first + |saved| * ChunkSize
      invariant |saved| == 0 || first + (|saved| - 1) * ChunkSize <= head
      invariant done == PlanPrefix(first, head, |saved|)
      invariant forall i :: 0 <= i < |done| ==> fetchOk(done[i])
      invariant saved == Ends(done)
      invariant db' == Fold(db, done, step)
      decreases head - start + 1
    {
      var end := Min(start + ChunkSize - 1, head);
      var range := Range(start, end);
      assert range == ChunkRange(first, head, |saved|);
      if !fetchOk(range) {
        return false, saved, db';
      }
      FoldSnoc(db, done, range, step);
      db' := step(db', range);
      assert first + (|saved| + 1) * ChunkSize == start + ChunkSize;
      done := done + [range];
      saved := saved + [end];
      start := end + 1;
    }
    complete := true;
  }

  /** Saved checkpoints strictly increase and lie above the checkpoint the
      run started from and at or below the head. */
  predicate CheckpointsAdvance(saved: seq<nat>, last: nat, head: nat) {
    && (forall i, j :: 0 <= i < j < |saved| ==> saved[i] < saved[j])
    && (forall i :: 0 <= i < |saved| ==> last < saved[i] <= head)
  }

  /** Checkpoints saved from a prefix of the chunk plan advance, and the
      full plan ends at the head. */
  lemma SavedOrdered(start: nat, head: nat, saved: seq<nat>)
    requires start > 0
    requires |saved| <= |Chunks(start, head)|
    requires forall i :: 0 <= i < |saved| ==> saved[i] == Chunks(start, head)[i].hi
    ensures CheckpointsAdvance(saved, start - 1, head)
    ensures |saved| == |Chunks(start, head)| && saved != [] ==> saved[|saved| - 1] == head
  {
    forall i, j | 0 <= i < j < |saved|
      ensures saved[i] < saved[j]
    {
      ChunkEndsIncrease(start, head, i, j);
    }
    forall i | 0 <= i < |saved|
      ensures start <= saved[i] <= head
    {
      ChunkWithin(start, head, i);
    }
  }

  /** The checkpoint the next run reads after this run saved `saved`.
      Saving itself never fails in this model. */
  function CheckpointAfter(file: CheckpointFile, saved: seq<nat>): CheckpointFile {
    if saved == [] then file else Stored(Some(saved[|saved| - 1]))
  }

  /** Once a run has saved checkpoints, the next run reads back the last
      one and scans only blocks above it: an event at or below it, even one
      whose write failed, is never fetched again. */
  lemma NoRetryBelowCheckpoint(file: CheckpointFile, saved: seq<nat>, nextHead: nat, logs: seq<Event>, e: Event)
    requires saved != [] && e in logs && e.block <= saved[|saved| - 1]
    ensures LastProcessedBlock(CheckpointAfter(file, saved)) == saved[|saved| - 1]
    ensures forall r :: r in Chunks(LastProcessedBlock(CheckpointAfter(file, saved)) + 1, nextHead) ==>
              e !in ChunkEvents(logs, r)
  {
    var h := saved[|saved| - 1];
    forall r | r in Chunks(h + 1, nextHead)
      ensures e !in ChunkEvents(logs, r)
    {
      var c := Chunks(h + 1, nextHead);
      var k :| 0 <= k < |c| && c[k] == r;
      if k > 0 {
        ChunkEndsIncrease(h + 1, nextHead, 0, k);
      }
      ChunkEventsOrdered(logs, r);
    }
  }
}

=== FILE: text.dfy ===
/** Case normalisation of wallet addresses. Addresses are hexadecimal
    strings, so the letters that matter are ASCII; `str.lower()` is modelled
    on the ASCII range only. */
module Text {

  predicate IsUpper(c: char) {
    'A' <= c <= 'Z'
  }

  /** One character of `str.lower()`. */
  function LowerChar(c: char): (r: char)
    ensures !IsUpper(r)
    ensures IsUpper(c) ==> r as int == c as int + 32
    ensures !IsUpper(c) ==> r == c
  {
    if IsUpper(c) then (c as int + 32) as char else c
  }

  /** `s.lower()`: every upper-case letter replaced by its lower-case form. */
  function Lower(s: string): (r: string)
    ensures |r| == |s|
    ensures IsLower(r)
  {
    if s == [] then [] else [LowerChar(s[0])] + Lower(s[1..])
  }

  /** No upper-case letter occurs in `s`. */
  predicate IsLower(s: string) {
    forall i :: 0 <= i < |s| ==> !IsUpper(s[i])
  }

  /** `a` and `b` spell the same word, letter by letter, up to letter case. */
  predicate CaseVariant(a: string, b: string) {
    |a| == |b| && forall i :: 0 <= i < |a| ==> LowerChar(a[i]) == LowerChar(b[i])
  }

  lemma {:induction false} LowerAt(s: string, i: int)
    requires 0 <= i < |s|
    ensures Lower(s)[i] == LowerChar(s[i])
  {
    if i > 0 {
      LowerAt(s[1..], i - 1);
    }
  }

  /** A string with no upper-case letter is its own lower-case form;
      in particular lower-casing twice is the same as lower-casing once. */
  lemma {:induction false} LowerFixesLower(s: string)
    requires IsLower(s)
    ensures Lower(s) == s
  {
    if s != [] {
      LowerFixesLower(s[1..]);
    }
  }

  lemma LowerIdempotent(s: string)
    ensures Lower(Lower(s)) == Lower(s)
  {
    LowerFixesLower(Lower(s));
  }

  /** Two strings have the same lower-case form exactly when they differ
      only in letter case. */
  lemma CaseVariantIffSameLower(a: string, b: string)
    ensures CaseVariant(a, b) <==> Lower(a) == Lower(b)
  {
    if CaseVariant(a, b) {
      forall i | 0 <= i < |a|
        ensures Lower(a)[i] == Lower(b)[i]
      {
        LowerAt(a, i);
        LowerAt(b, i);
      }
    }
    if Lower(a) == Lower(b) {
      forall i | 0 <= i < |a|
        ensures LowerChar(a[i]) == LowerChar(b[i])
      {
        LowerAt(a, i);
        LowerAt(b, i);
      }
    }
  }
}

=== FILE: units.dfy ===
/** The contract's six-decimal fixed point: an on-chain amount `raw` stands
    for `raw / 10^6` units. Python performs the division in floating point;
    here it is exact. */
module Units {

  const Decimals: nat := 6
  const Scale: nat := 1000000

  /** `raw / 10**6`, the decimal the database stores for a raw chain amount. */
  function FromRaw(raw: int): (r: real)
    ensures r * Scale as real == raw as real
    ensures raw >= 0 ==> r >= 0.0
  {
    raw as real / Scale as real
  }

  /** `int(x * 10**6)`: a decimal turned back into raw fixed point,
      truncated toward zero. */
  function ToRaw(x: real): (r: int)
    ensures x >= 0.0 ==> r >= 0
  {
    if x >= 0.0 then (x * Scale as real).Floor else -((-x * Scale as real).Floor)
  }

  /** Scaling loses nothing: the raw amount is recovered from the decimal. */
  lemma ToRawFromRaw(raw: int)
    ensures ToRaw(FromRaw(raw)) == raw
  {
    var x := FromRaw(raw);
    if raw >= 0 {
      assert x * Scale as real == raw as real;
    } else {
      assert -x * Scale as real == (-raw) as real;
    }
  }

  lemma FromRawInjective(a: int, b: int)
    requires FromRaw(a) == FromRaw(b)
    ensures a == b
  {
    ToRawFromRaw(a);
    ToRawFromRaw(b);
  }

  /** Truncation keeps a non-negative decimal within one raw unit below it:
      the raw amount sent on chain never exceeds the stored decimal. */
  lemma ToRawBounds(x: real)
    requires x >= 0.0
    ensures FromRaw(ToRaw(x)) <= x < FromRaw(ToRaw(x) + 1)
  {
    var r := ToRaw(x);
    assert r as real <= x * Scale as real < r as real + 1.0;
  }
}

=== FILE: wallet.dfy ===
/** The wallet-ownership challenge of the sign-up route in app.py: GET mints
    a random nonce into the session, POST rebuilds the challenge text from the
    session nonce and accepts when the address recovered from the signature
    equals the claimed address, ignoring letter case. */
module Wallet {
  import opened Outcomes
  import opened Text
  import opened Hex

  const ChallengePrefix: string := "Sign this message to verify your wallet ownership with OpenFund. Nonce: "
  const SignupSucceeded: string := "Account created successfully"

  /** The server-side session; only the nonce matters here. */
  datatype Session = Session(nonce: Option<string>)

  /** How an f-string renders the session value: an absent nonce prints as
      `None`. */
  function NonceText(n: Option<string>): (r: string)
    ensures n.Some? ==> r == n.value
    ensures n.None? ==> r == "None"
  {
    match n
    case Some(v) => v
    case None => "None"
  }

  /** The challenge text signed for a nonce. */
  function ChallengeFor(nonce: string): (m: string)
    ensures |m| == |ChallengePrefix| + |nonce|
    ensures m[..|ChallengePrefix|] == ChallengePrefix && m[|ChallengePrefix|..] == nonce
  {
    ChallengePrefix + nonce
  }

  /** Distinct nonces give distinct challenges, so a signature over one
      challenge is a signature over that nonce only. */
  lemma ChallengeInjective(a: string, b: string)
    requires ChallengeFor(a) == ChallengeFor(b)
    ensures a == b
  {
    assert a == ChallengeFor(a)[|ChallengePrefix|..];
  }

  /** The fields of the POST body the check reads; the name, e-mail and
      password fields are only printed. */
  datatype SignupBody = SignupBody(walletAddress: Option<string>, signature: Option<string>)

  /** What the route sends back. */
  datatype Response =
    | Json(success: bool, message: string)
    | BadRequest                  // `request.json` refuses the body: Flask answers 415 or 400
    | ServerError                 // an exception inside the handler: Flask answers 500
    | SignupPage(nonce: string)   // signup.html rendered with the nonce

  /** The signature recovery of a present signature: the address that
      signed `message`, or `None` when recovery raises on a malformed one. A
      missing signature never reaches it: the route raises on it first. */
  type Recover = (string, string) -> Option<string>

  /** GET: `secrets.token_hex(16)` over sixteen random bytes, stored in the
      session and rendered into the page. */
  function SignupGet(session: Session, entropy: seq<byte>): (r: (Session, Response))
    requires |entropy| == 16
    ensures r.0.nonce.Some? && r.1 == SignupPage(r.0.nonce.value)
    ensures |r.0.nonce.value| == 32 && forall i :: 0 <= i < 32 ==> IsHexDigit(r.0.nonce.value[i])
    ensures DecodeHex(r.0.nonce.value) == Some(entropy)
  {
    DecodeTokenHex(entropy);
    var nonce := TokenHex(entropy);
    (Session(Some(nonce)), SignupPage(nonce))
  }

  /** POST. `body` is `None` when the request carries no JSON body, which
      `request.json` rejects before the handler reads anything. A failed
      recovery or a missing address raises inside the handler. The session
      is never changed. */
  function SignupPost(session: Session, body: Option<SignupBody>, recover: Recover): (r: (Session, Response))
    ensures r.0 == session
    ensures r.1 == BadRequest <==> body.None?
    ensures body.Some? && !r.1.Json? ==> r.1 == ServerError
    ensures body.Some? && body.value.signature.None? ==> r.1 == ServerError
    ensures r.1.Json? <==>
              body.Some? && body.value.walletAddress.Some? && body.value.signature.Some? &&
              recover(ChallengeFor(NonceText(session.nonce)), body.value.signature.value).Some?
    ensures r.1.Json? ==>
              (r.1.success <==>
                 Lower(recover(ChallengeFor(NonceText(session.nonce)), body.value.signature.value).value)
                 == Lower(body.value.walletAddress.value))
    ensures r.1.Json? && r.1.success ==> r.1.message == SignupSucceeded
    ensures r.1.Json? && !r.1.success ==> r.1.message == NonceText(session.nonce)
  {
    match body
    case None => (session, BadRequest)
    case Some(b) =>
      var message := ChallengeFor(NonceText(session.nonce));
      if b.signature.None? then (session, ServerError)
      else
        match recover(message, b.signature.value)
        case None => (session, ServerError)
        case Some(recovered) =>
          match b.walletAddress
          case None => (session, ServerError)
          case Some(claimed) =>
            if Lower(recovered) == Lower(claimed) then (session, Json(true, SignupSucceeded))
            else (session, Json(false, NonceText(session.nonce)))
  }

  /** Changing the letter case of the claimed address never changes the
      response. */
  lemma CaseInsensitive(session: Session, a: string, b: string, signature: Option<string>, recover: Recover)
    requires CaseVariant(a, b)
    ensures SignupPost(session, Some(SignupBody(Some(a), signature)), recover)
         == SignupPost(session, Some(SignupBody(Some(b), signature)), recover)
  {
    CaseVariantIffSameLower(a, b);
  }

  /** Only a case variant of the recovered address is accepted. */
  lemma AcceptsOnlyCaseVariants(session: Session, claimed: string, signature: string, recover: Recover)
    requires recover(ChallengeFor(NonceText(session.nonce)), signature).Some?
    ensures var r := SignupPost(session, Some(SignupBody(Some(claimed), Some(signature))), recover).1;
            r.Json? && (r.success <==> CaseVariant(claimed, recover(ChallengeFor(NonceText(session.nonce)), signature).value))
  {
    CaseVariantIffSameLower(claimed, recover(ChallengeFor(NonceText(session.nonce)), signature).value);
  }

  /** The nonce is not consumed: replaying an accepted request against the
      session it left behind is accepted again, any number of times. */
  lemma {:induction false} Replay(session: Session, body: Option<SignupBody>, recover: Recover, n: nat)
    ensures ReplayResponses(session, body, recover, n) == seq(n, _ => SignupPost(session, body, recover).1)
    decreases n
  {
    if n > 0 {
      Replay(session, body, recover, n - 1);
      var first := SignupPost(session, body, recover);
      assert ReplayResponses(session, body, recover, n)
          == [first.1] + ReplayResponses(first.0, body, recover, n - 1);
    }
  }

  /** The responses to sending the same POST `n` times in a row, each against
      the session the previous one left. */
  function ReplayResponses(session: Session, body: Option<SignupBody>, recover: Recover, n: nat): (r: seq<Response>)
    ensures |r| == n
    decreases n
  {
    if n == 0 then []
    else
      var step := SignupPost(session, body, recover);
      [step.1] + ReplayResponses(step.0, body, recover, n - 1)
  }

  /** The honest flow: the page mints a nonce, the wallet signs its challenge
      with the key of `address`, and the sign-up posting that signature with
      any case variant of `address` succeeds. */
  lemma HonestSignup(session: Session, entropy: seq<byte>, address: string, claimed: string,
                     signature: string, recover: Recover)
    requires |entropy| == 16
    requires recover(ChallengeFor(TokenHex(entropy)), signature) == Some(address)
    requires CaseVariant(claimed, address)
    ensures var after := SignupGet(session, entropy).0;
            SignupPost(after, Some(SignupBody(Some(claimed), Some(signature))), recover).1
              == Json(true, SignupSucceeded)
  {
    CaseVariantIffSameLower(claimed, address);
  }
}
